=== FILE: README.md ===
# WhatsApp sales assistant — a Dafny model of its decision core

This project models the deterministic decisions inside a WhatsApp sales assistant for a pet
shop. The assistant has four parts:

- A webhook controller (`handleMessage`) that receives Meta's notifications.
- A reply engine (`generarRespuesta`) that asks a Gemini chat model for an answer and for an updated long-term memory of the customer.
- A Firestore document store that keeps customer profiles and chat histories.
- A Shopify service that searches the catalog and places manual orders.

An older reply engine with single-tool dispatch sits next to the live one and is modelled too.

The reasoning API, the document store, the messaging API and the commerce APIs are not
modelled as code. Each is a value or a function handed in as a parameter:

- `ask` and `extract` stand for the two Gemini requests.
- `request` and `post` stand for the Shopify GraphQL and REST calls.
- A failed `await` on the store or on the send call is named by `WhatsApp.IoStep`.

The controller is a pure step function from a request and a `World` to a response and the
next `World`. A `World` holds the profiles, each customer's history in insertion order, the
outbox of sent messages, and a server clock.

Modules:

- `Wrappers`: `Option`.
- `Chat`: stored messages, turns, roles and the engine result.
- `JsText`: the JavaScript string built-ins the code relies on: `trim`, `length` in UTF-16 units, `replace(/…/g, "")`, `split`/`join`/`pop` and `parseInt`.
- `Json`: `JSON.stringify` of strings and booleans, with a reader used to state round trips.
- `Shopify`: `src/services/shopify.js`.
- `AiEngine`: `src/ai/index.js`.
- `Database`: `src/services/database.js`.
- `LegacyAi`: `src/services/ai.js`.
- `WhatsApp`: `src/controllers/whatsapp.js`.

Facts about the code that shape the model:

- The long-term memory is one narrative string, `notas_mascota`, rewritten whole on every accepted extraction.
- The memory extraction and its write are awaited inside `generarRespuesta`, before the reply is sent.
- The chat session of the `@google/generative-ai` client keeps the history array `startChat` was given and, once `sendMessage` is answered with a valid response, appends the message and the reply to it. An answer without text is not a valid response, and then nothing is appended. The transcript for the extraction is built from that array afterwards, so it ends with the customer's message and Ana's reply whenever the reply has text. The client library is not part of this model; `AiEngine.Exchanged` states that behaviour.
- An inbound message with no text is stored as `""`, and the engine is still called.
- The live engine strips every leading model turn from the history. The older engine drops one.

## Model

| member | source | states |
|---|---|---|
| Chat.RoleOf | src/ai/index.js:26 | a stored role maps to the user role exactly when it is `usuario`; every other role, `bot` included, maps to the model role |
| JsText.Trim | src/controllers/whatsapp.js:37 | the result neither starts nor ends with white space and is a slice of the input with only white space cut off on either side |
| JsText.TrimOfPadded | src/ai/index.js:71 | trimming any white-space padding around a text that has no outer white space gives back exactly that text |
| JsText.TrimIdempotent | src/ai/index.js:71 | trimming an already trimmed text changes nothing |
| JsText.Utf16Length | src/services/database.js:71 | `length` counts UTF-16 code units: between one and two per character, exactly one per character when all are in the Basic Multilingual Plane |
| JsText.RemoveAll | src/services/database.js:69 | the global literal replace never lengthens its input and leaves a text without any occurrence unchanged |
| JsText.RemoveAllKeepsCleanPrefix | src/services/database.js:69 | text in front of the first occurrence of the pattern is copied through untouched |
| JsText.RemoveAllDropsLeadingOccurrence | src/services/database.js:69 | an occurrence at the front is deleted and the scan resumes right after it |
| JsText.Split | src/services/shopify.js:110 | `split` on one character always yields at least one piece and no piece contains the separator |
| JsText.SplitJoin | src/ai/index.js:54-56 | splitting the newline-joined lines gives back the lines when none contains a newline |
| JsText.LastSegment | src/services/shopify.js:110 | `split('/').pop()` is a slash-free suffix of the id that is either the whole id or sits right behind a slash |
| JsText.LastSegmentIsLastPiece | src/services/shopify.js:110 | that suffix is exactly the last piece `split` yields |
| JsText.ParseInt | src/services/shopify.js:110 | `parseInt(_, 10)` yields a number exactly when a digit follows the leading white space and an optional sign, and a negative number only after a minus sign |
| JsText.ParseIntOfPadded | src/services/shopify.js:110 | `parseInt` skips leading white space, reads an optional sign and the longest run of digits, and ignores whatever follows: `" 12"`, `"12abc"`, `"+5"` and `"-12"` read as 12, 12, 5 and -12 |
| JsText.LeadingZeroIgnored | src/services/shopify.js:110 | a leading zero does not change the value read, so `"007"` reads as 7 |
| JsText.Join | src/ai/index.js:56 | `join` of no parts is empty and of one part is that part; otherwise the result starts with the first part, followed by the separator |
| JsText.JoinAppend | src/ai/index.js:56 | joining two non-empty runs of parts is joining each with the separator between them |
| JsText.ParseIntOfDecimal | src/services/shopify.js:110 | `parseInt` reads back any non-negative integer from its decimal digits |
| Json.EscapeChar | src/services/ai.js:115-120 | a character is written as itself exactly when it is not a quote, a backslash or a control character below U+0020; otherwise as an escape sequence starting with a backslash |
| Json.RawControlRejected | src/services/ai.js:115-120 | a raw control character inside a string literal is not JSON, so the reader the round trips are stated with rejects it |
| Json.Escape | src/services/ai.js:115-120 | escaping never shortens a text and leaves a text without quotes, backslashes or control characters unchanged |
| Json.Quote | src/services/ai.js:115-120 | a string literal is the escaped text between two quotes; for a text with nothing to escape it is the text itself between quotes |
| Json.ReadStringOfQuote | src/services/ai.js:115-120 | the string literal `JSON.stringify` writes for a text reads back as that text, followed by whatever came after it |
| Json.ReadBoolOfBool | src/services/ai.js:115-120 | a serialized boolean reads back as the same boolean |
| Shopify.SearchQuery | src/services/shopify.js:39-44 | the search asks for 5 products with a query that is the keyword followed by the active-status filter, from which the keyword can be recovered |
| Shopify.ToProduct | src/services/shopify.js:84-90 | a node converts to a product exactly when it has a first variant (otherwise the mapping throws) |
| Shopify.MapNodes | src/services/shopify.js:84-90 | the edges map to products exactly when every node has a variant, and then one product per edge, in edge order |
| Shopify.SearchResults | src/services/shopify.js:71-94 | a failed request, a missing `data` or `data.products`, or a node without a variant gives `[]`; otherwise one product per edge with the minimum variant price and currency, the first variant's id, and `available` equal to `Shopify.Available`: true exactly when inventory is positive or the first variant is for sale |
| Shopify.SearchProducts | src/services/shopify.js:34-95 | a non-empty result means the request for the keyword's query was answered with products, one per edge |
| Shopify.MapNodesAppend | src/services/shopify.js:84-90 | the mapping works edge by edge: mapping two runs of edges gives the two runs of products, concatenated |
| Shopify.ToLineItem | src/services/shopify.js:109-112 | a line copies the quantity and carries `parseInt` of the text after the id's last slash |
| Shopify.ToLineItemOfGlobalId | src/services/shopify.js:110 | for a global id ending in `/` and a number, the line carries that number whatever precedes the slash |
| Shopify.BuildOrder | src/services/shopify.js:107-121 | the order has one line per item in item order, the given buyer, status `pending` and the tag `pedido-whatsapp` |
| Shopify.BuildOrderCarriesIds | src/services/shopify.js:107-112 | items whose ids are global ids ending in `/<n>` become line items carrying the numbers `n` and their quantities, position by position |
| Shopify.PlaceOrder | src/services/shopify.js:103-140 | a summary comes back exactly when the post succeeds and returns an order, with that order's name and total; every failure is rethrown |
| AiEngine.KeptIndices | src/ai/index.js:23-24 | the positions the filter keeps are increasing, and a position is kept exactly when its message has both a text and a role |
| AiEngine.KeepUsable | src/ai/index.js:23-24 | the filtered history is the stored messages at exactly those positions |
| AiEngine.ToTurns | src/ai/index.js:25-28 | the mapping gives one turn per message, same position, with the mapped role and the text |
| AiEngine.LastN | src/ai/index.js:29 | `slice(-n)` for n ≥ 1 (the code uses 15 and 14) is the suffix of length n, or everything when there are fewer |
| AiEngine.StripLeadingModel | src/ai/index.js:31-33 | the stripped history is a suffix that is empty or starts with a user turn, and everything removed in front of it was a model turn |
| AiEngine.NormalizeHistory | src/ai/index.js:23-33 | the history handed to the reasoning API holds at most 15 turns and is empty or opens with a user turn |
| AiEngine.NormalizeHistoryOrigins | src/ai/index.js:23-33 | every turn handed to the reasoning API is a stored message with both text and role, mapped to its role and text |
| AiEngine.NormalizeHistoryKeepsOrder | src/ai/index.js:23-33 | the turns keep the relative order of the stored messages they come from |
| AiEngine.NormalizeHistoryHasNoGaps | src/ai/index.js:23-33 | no usable message newer than the first one sent is skipped |
| AiEngine.NormalizeHistoryWindow | src/ai/index.js:23-33 | the history sent has at most 15 turns, starts on a user turn, is a suffix of the filtered and mapped list, and lost from the newest 15 only model turns |
| AiEngine.NormalizeEndsWithLatestUserMessage | src/ai/index.js:23-33 | when the newest stored message is the customer's non-empty text, normalisation keeps it as the last turn |
| AiEngine.Transcript | src/ai/index.js:54-56 | the transcript is empty exactly when the history is, and when no text holds a newline it reads back as the same turns, roles and order |
| AiEngine.TranscriptOfOne | src/ai/index.js:55 | one turn gives its `Cliente: `/`Ana: ` line (`TranscriptLine`) followed by its text as written, newlines included |
| AiEngine.TranscriptAppend | src/ai/index.js:54-56 | the transcript of two non-empty histories is their transcripts joined by a newline; with the one-turn case this fixes the transcript of every history |
| AiEngine.TranscriptEndsWithExchange | src/ai/index.js:46-56 | after a reply with text, the transcript the extraction reads is the earlier turns' transcript, then the `Cliente: ` line of the message and the `Ana: ` line of the reply; after an empty reply it is the earlier turns' transcript alone |
| AiEngine.MemoryGate | src/ai/index.js:71-76 | notes are handed to the store exactly when the extraction succeeded and its trimmed text is non-empty, is not `SIN_CAMBIOS` and differs from the current notes; what is handed over is that trimmed text |
| AiEngine.MemoryGateSettles | src/ai/index.js:74 | the gate's third test on its own: notes equal to what an extraction proposes stop that extraction from being handed over again |
| AiEngine.Respond | src/ai/index.js:15-97 | a failed chat request gives the fallback text and no action; with no function call the reply is the model text with no action and the memory write is decided by the gate on an extraction over the transcript of the history followed by the message and the reply when the reply has text; with a call there is no extraction, and the fixed sales text with `HANDOVER_SALES` comes back exactly when the first call is `escalarAVentas` |
| AiEngine.ReplyIgnoresExtraction | src/ai/index.js:50-82 | whatever the extraction request answers, or if it fails, the controller gets the same reply |
| AiEngine.OnlyFirstCallMatters | src/ai/index.js:48 | function calls after the first change nothing |
| Database.GetOrCreate | src/services/database.js:26-58 | the fetch fails exactly when a store call throws; an existing document is returned as read and only its visit time is rewritten; a new one gets the messaging name or `Amigo/a`, empty notes, no hand-over flag and the registration time |
| Database.LaterVisitFindsStored | src/services/database.js:31-53 | a later visit returns the document the first visit stored, ignoring the later visit's name |
| Database.CleanNotes | src/services/database.js:69 | the cleaned notes are trimmed and no longer than the input, and a text without the marker is only trimmed |
| Database.StoreNotes | src/services/database.js:66-85 | with `Database.Accepted` the cleaned text being non-empty and at least 3 UTF-16 units long: the notes are replaced by exactly the cleaned text and stamped when it is non-empty, at least 3 UTF-16 units long and the update does not throw; otherwise the document is unchanged; no other field ever changes |
| Database.StoreNotesTwice | src/services/database.js:66-85 | writing the same extraction twice leaves the notes as writing it once |
| Database.CleanNotesDropsLeadingMarker | src/services/database.js:69 | a marker in front is deleted and the rest is cleaned as if it were absent |
| Database.MarkerAloneIsNotStored | src/services/database.js:69-71 | the bare marker cleans to nothing and is never written |
| Database.NestedMarkerRemoval | src/services/database.js:69 | for the one literal `SIN_SIN_CAMBIOSCAMBIOS`, removing every occurrence in one pass leaves the bare marker |
| Database.NestedMarkerSurvives | src/services/database.js:69-71 | the single pass does not see a marker its own deletion creates: `SIN_SIN_CAMBIOSCAMBIOS` cleans to `SIN_CAMBIOS`, which is then written |
| Database.TwoPictographsAreStored | src/services/database.js:71 | the length guard counts UTF-16 units, so two emoji (four units) are written |
| LegacyAi.DropOneLeadingModel | src/services/ai.js:77-80 | a history opening with a model turn loses exactly that one turn; any other history is unchanged |
| LegacyAi.LegacyHistory | src/services/ai.js:69-80 | the history handed on is every stored message mapped to a turn, unfiltered and uncapped, from the first or the second message on; the first is dropped exactly when its stored role is not `usuario` |
| LegacyAi.DropOneAgreesWithStrip | src/services/ai.js:77-80 | dropping one leading model turn agrees with the live engine's strip exactly when the history does not open with two model turns |
| LegacyAi.TwoLeadingModelTurnsBreakTheRule | src/services/ai.js:74-80 | with two leading model turns the history handed on still opens with a model turn |
| LegacyAi.ToViews | src/services/ai.js:115-120 | one `{titulo, precio, id, disponible}` view per product, in product order, from title, price, variant id and availability |
| LegacyAi.ViewsJson | src/services/ai.js:115-120 | the JSON array the search tool reports (one `ViewJson` object per view, members in declaration order) is an array that reads back as exactly the views, in order |
| LegacyAi.KeywordText | src/services/ai.js:111 | the keyword interpolated into the query is the one given, or the text `undefined` when the call's arguments have none |
| LegacyAi.RunTool | src/services/ai.js:106-128 | a search call without arguments throws (no outcome); a search without a keyword searches for `undefined`; the action is `HANDOVER` exactly for `escalarAHumano` and never `HANDOVER_SALES`; the result is empty exactly for an unknown tool; a search reports the fixed no-products text when nothing is found and otherwise JSON that reads back as the products' views |
| LegacyAi.MissingKeywordSearchesUndefined | src/services/ai.js:110-111 | a search call whose arguments lack the keyword queries `undefined AND status:ACTIVE` and still reports the search's outcome |
| LegacyAi.NoProductsTextIsNoArray | src/services/ai.js:114-123 | the no-products text never reads as a product array |
| LegacyAi.Respond | src/services/ai.js:42-148 | a failed first or second request, or a search call without arguments, gives the fallback text; no call gives the model text with no action; otherwise only the first call runs, and its result goes to the second request, whose text comes back with the tool's action |
| LegacyAi.HandoverOnlyFromHumanTool | src/services/ai.js:106-141 | the older engine reports `HANDOVER` only when the first call asks for a person, and never the `HANDOVER_SALES` the controller acts on |
| LegacyAi.LegacyOnlyFirstCallMatters | src/services/ai.js:100 | function calls after the first change nothing |
| WhatsApp.Inbound | src/controllers/whatsapp.js:29-35 | a notification is processed exactly when it comes from the business account and its first entry's first change has a value with a first message |
| WhatsApp.InboundText | src/controllers/whatsapp.js:37 | the message text is exactly the trimmed text body, a slice of it with only white space cut off, and `""` when there is no text body |
| WhatsApp.Window | src/controllers/whatsapp.js:62-63 | newest 15 by descending time, reversed, is the last 15 messages in insertion order |
| WhatsApp.EngineTurnFor | src/controllers/whatsapp.js:67-75 | the engine is called with the message text, the last 15 stored messages and the customer's notes |
| WhatsApp.WindowHoldsNewest | src/controllers/whatsapp.js:62-63 | on a history in timestamp order the window is in ascending order and every message left out is older than every message read |
| WhatsApp.WindowOfAppended | src/controllers/whatsapp.js:53-63 | after the customer's message is appended, the window is the 14 newest before it followed by that message |
| WhatsApp.Handle | src/controllers/whatsapp.js:18-107 | every request answers 200, 403 or 500; 403 only for a verification; a verification changes nothing; only a verification sends a body, and that body is the challenge |
| WhatsApp.Receive | src/controllers/whatsapp.js:38-50 | missing metadata or a failed profile fetch gives 500 with nothing changed; a 500 needs one of those or a store or send call that throws; only the writer's data changes, no flag is cleared and history order is kept |
| WhatsApp.Converse | src/controllers/whatsapp.js:52-102 | a failed append or history query gives 500; with no failure, or only a failed notes write, the answer is 200; with no failure the engine sees the history with the new message, and its reply, memory write and hand-over are recorded as the engine decided |
| WhatsApp.Answer | src/controllers/whatsapp.js:67-100 | the answer is 200 or 500, a failed notes write never fails the request, and with no failure the world records the engine's memory write, reply and hand-over |
| WhatsApp.RecordMemory | src/ai/index.js:74-76 | the customer's notes become the cleaned proposed notes exactly when notes were proposed, pass the store's guard and the write does not throw; the hand-over flag, every other customer, every history and the outbox are left as they were |
| WhatsApp.Deliver | src/controllers/whatsapp.js:77-100 | the reply is sent to the customer and then stored with `rol: 'bot'` only when its text is non-empty; the answer is 500 exactly when the send or the reply append throws on a non-empty text, or the hand-over write throws; with no failure the flag ends up set exactly when it was set or the action is `HANDOVER_SALES` |
| WhatsApp.Escalate | src/controllers/whatsapp.js:93-100 | `HANDOVER_SALES` sets the flag unless the write throws, which gives 500; any other action changes nothing |
| WhatsApp.OtherCustomersUntouched | src/controllers/whatsapp.js:18-107 | a notification changes only the writer's document and history, sends only to the writer, and never moves the clock back |
| WhatsApp.HandleKeepsValid | src/controllers/whatsapp.js:53-63 | every request keeps each history in timestamp order, so insertion order stays timestamp order for the window query |
| WhatsApp.HandoverIsSticky | src/controllers/whatsapp.js:45-50 | no request removes a customer document or clears a hand-over flag |
| WhatsApp.VerificationHandshake | src/controllers/whatsapp.js:21-26 | a verification answers 200 with the challenge exactly when the token is `mm_verificacion_123`, 403 otherwise, and changes nothing |
| WhatsApp.IgnoredNotification | src/controllers/whatsapp.js:29-32 | a notification not from the business account, or without a first message, answers 200 and changes nothing |
| WhatsApp.MalformedNotificationFails | src/controllers/whatsapp.js:29-38 | a missing body or missing metadata throws before any write: 500 and nothing changes |
| WhatsApp.ServerErrorNeedsAFault | src/controllers/whatsapp.js:104-107 | with no store or send failure, apart from the swallowed notes write, a 500 only comes from a missing body or missing metadata |
| WhatsApp.FailedFetchChangesNothing | src/controllers/whatsapp.js:43 | a failed profile fetch stops the request before anything is stored or sent |
| WhatsApp.HandedOverStaysSilent | src/controllers/whatsapp.js:45-50 | while the flag is set nothing is sent or recorded, and the document only gets its visit time |
| WhatsApp.EngineSeesCustomerMessage | src/controllers/whatsapp.js:53-67 | the customer's non-empty message just stored is the last turn the reasoning API is given |
| WhatsApp.MarkerCanReachNotes | src/ai/index.js:71-76 | the engine's gate lets `SIN_SIN_CAMBIOSCAMBIOS` through as new notes, and the store's cleaning turns it into the bare marker it then writes |
| WhatsApp.StoredNotesSettle | src/ai/index.js:71-76 | accepted notes without the marker are written as proposed, after which the same extraction no longer passes the gate |
| WhatsApp.DoubledMarkerNeverSettles | src/ai/index.js:71-76 | a doubled marker is written as the bare marker, so the same extraction passes the gate again and is rewritten on every turn |

## Left out

- AiEngine.Respond: whether the chat session appends the exchange is decided on the reply text alone: empty means not appended, non-empty means appended. An answer the client rejects part by part while its joined text is non-empty, or accepts with only non-text parts, is not told apart.
- AiEngine.LastN: models `slice(-n)` for n ≥ 1 only. `LastN(s, 0)` is empty where `slice(-0)` is the whole array; the code never passes 0.
- The Gemini requests are not modelled. Their answers are the parameters `ask`, `extract` and `answer`. The system instruction, the persona prompt, the customer name in it and the tool declarations are configuration and are not modelled.
- The Firestore, Graph API and Shopify calls are not modelled. Their outcomes are parameters. At most one `await` per request throws (`Env.fault`). The effects of earlier steps stay in place.
- `serverTimestamp()` is a clock that moves on after each write. The window query `orderBy('timestamp','desc').limit(15)` is modelled on insertion order. `WhatsApp.Valid` states, and every request keeps, the invariant that makes the two agree.
- Concurrency between requests is not modelled: each request is one atomic step. Neither is a request racing a person who clears the hand-over flag outside this code.
- The unwrapping of `response.body` or `response.json()` in the product search is not modelled. The request parameter yields the parsed body directly.
- The keyword is not escaped inside the GraphQL query text. The model keeps the query as a string and does not model GraphQL parsing.
- JavaScript numbers are not modelled as doubles. `parseInt` of a very long digit string yields the exact integer, and `-0` is read as 0.
- Absent fields and `""` are one value for a stored message's `texto` and `rol`, the customer's name and the notes. The code only tests these for truthiness or replaces them with `|| ""`, so the model stores an absent one as `""`. Fields the code interpolates into text are modelled as options instead (the search keyword, the phone number id).
- Lone UTF-16 surrogates are not modelled. Dafny characters are Unicode scalar values, so the surrogate escaping of `JSON.stringify` does not arise.
- Logging (`console.log`/`console.error`) and the Express bootstrap in `index.js` are not modelled.
- Shopify.SearchProducts: its own contract only ties a non-empty result to an answered request. The per-product mapping is stated on Shopify.SearchResults, which it applies to the request's answer.
- Shopify.SearchQuery: states the page size asked for, not that the platform honours it. A reply with more than five edges is mapped in full.

=== FILE: ai_engine.dfy ===
/** The reply engine the webhook controller calls (`generarRespuesta` in src/ai/index.js):
    it normalises the stored chat history for the reasoning API, asks for a reply, and, when
    the reasoning API called no tool, asks a second time for an updated long-term memory and
    decides whether that memory should be written. The reasoning API is a pair of functions
    handed in by the caller. */
module AiEngine {
  import opened Wrappers
  import opened Chat
  import JsText

  /** How many history entries the reasoning API is given (`slice(-15)`). */
  const HistoryLimit: nat := 15

  /** The tool whose call hands the customer over to the sales team. */
  const SalesTool: string := "escalarAVentas"

  const SalesHandoverText: string :=
    "¡Qué nota! Mira, te paso con mi equipo de ventas para ayudarte con eso. ¡Dame un segundo! 🙋‍♀️"

  /** The reply when anything in the reply path throws. */
  const FallbackText: string := "¡Ay! Me distraje un segundo. ¿Me repites? 🐾"

  const UserLabel: string := "Cliente: "
  const ModelLabel: string := "Ana: "

  /** The answer to `chat.sendMessage`: it threw, or it came back with its text and the names
      of the functions it called, in order. */
  datatype ChatAnswer = ChatFailed | ChatAnswered(text: string, calls: seq<string>)

  /** The answer to the memory extraction request: it threw, or it came back with a text. */
  datatype Extraction = ExtractionFailed | Extracted(text: string)

  /** What one call of the engine produces: the result handed back to the controller, and
      the notes it passed to the store's memory update, if it called it. */
  datatype EngineTurn = EngineTurn(result: AiResult, memoryWrite: Option<string>)

  // ---------------------------------------------------------------------------------------
  // History normalisation
  // ---------------------------------------------------------------------------------------

  /** `m.texto && m.rol`: both present and non-empty. */
  predicate Usable(m: StoredMsg) {
    m.texto != [] && m.rol != []
  }

  /** The positions of the messages `filter` keeps: increasing, all usable, and every usable
      position is among them. */
  function KeptIndices(h: seq<StoredMsg>): (idx: seq<nat>)
    ensures forall k :: 0 <= k < |idx| ==> idx[k] < |h| && Usable(h[idx[k]])
    ensures forall k, l :: 0 <= k < l < |idx| ==> idx[k] < idx[l]
    ensures forall i {:trigger i in idx} :: 0 <= i < |h| ==> (i in idx <==> Usable(h[i]))
  {
    if h == [] then []
    else
      var rest := KeptIndices(h[..|h| - 1]);
      assert forall k :: 0 <= k < |rest| ==> h[..|h| - 1][rest[k]] == h[rest[k]];
      if Usable(h[|h| - 1]) then rest + [|h| - 1] else rest
  }

  /** `filter(m => m.texto && m.rol)`. */
  function KeepUsable(h: seq<StoredMsg>): (r: seq<StoredMsg>)
    ensures |r| == |KeptIndices(h)|
    ensures forall k :: 0 <= k < |r| ==> r[k] == h[KeptIndices(h)[k]]
  {
    if h == [] then []
    else
      var rest := KeepUsable(h[..|h| - 1]);
      assert forall k :: 0 <= k < |rest| ==> rest[k] == h[KeptIndices(h[..|h| - 1])[k]];
      if Usable(h[|h| - 1]) then rest + [h[|h| - 1]] else rest
  }

  function ToTurn(m: StoredMsg): Turn {
    Turn(RoleOf(m.rol), m.texto)
  }

  /** `map(m => ({ role, parts: [{ text }] }))`. */
  function ToTurns(h: seq<StoredMsg>): (t: seq<Turn>)
    ensures |t| == |h| && forall i :: 0 <= i < |h| ==> t[i] == ToTurn(h[i])
  {
    seq(|h|, i requires 0 <= i < |h| => ToTurn(h[i]))
  }

  /** How many of `n` usable messages survive `slice(-15)`. */
  function Capped(n: nat): nat {
    if n < HistoryLimit then n else HistoryLimit
  }

  /** `slice(-n)` for `n >= 1`: the last `n` elements, or all of them when there are fewer.
      The code only takes 15 and 14; `slice(-0)` would be the whole array, while `LastN(s, 0)`
      is empty. */
  function LastN<T>(s: seq<T>, n: nat): (r: seq<T>)
    ensures |r| == if |s| < n then |s| else n
    ensures r == s[|s| - |r|..]
  {
    if |s| <= n then s else s[|s| - n..]
  }

  /** The `while` loop that shifts leading model turns off: the longest suffix of `t` that
      starts on a user turn, or nothing when every turn is the model's. */
  function StripLeadingModel(t: seq<Turn>): (r: seq<Turn>)
    ensures |r| <= |t| && r == t[|t| - |r|..]
    ensures AllModel(t[..|t| - |r|])
    ensures StartsWithUser(r)
  {
    if t != [] && t[0].role == Model then
      var r := StripLeadingModel(t[1..]);
      StripStep(t, r);
      r
    else t
  }

  /** One shift: what is left after the rest is stripped is also left of `t`, and the
      removed prefix grows by one model turn. */
  lemma StripStep(t: seq<Turn>, r: seq<Turn>)
    requires t != [] && t[0].role == Model
    requires |r| <= |t| - 1 && r == t[1..][|t| - 1 - |r|..] && AllModel(t[1..][..|t| - 1 - |r|])
    ensures r == t[|t| - |r|..] && AllModel(t[..|t| - |r|])
  {
    var n := |t| - 1 - |r|;
    SuffixOfSuffix(t, 1, n);
    ModelPrefixGrows(t, n);
  }

  lemma ModelPrefixGrows(t: seq<Turn>, n: nat)
    requires t != [] && t[0].role == Model
    requires n <= |t| - 1 && AllModel(t[1..][..n])
    ensures AllModel(t[..n + 1])
  {
    var p, q := t[..n + 1], t[1..][..n];
    forall i | 0 <= i < n + 1 ensures p[i].role == Model {
      if i > 0 {
        assert p[i] == q[i - 1];
      }
    }
  }

  /** The usable stored messages as turns, before the window is cut. */
  function Candidates(h: seq<StoredMsg>): seq<Turn> {
    ToTurns(KeepUsable(h))
  }

  /** The history handed to `startChat`: at most 15 turns, empty or opening with the
      customer. */
  function NormalizeHistory(h: seq<StoredMsg>): (r: seq<Turn>)
    ensures |r| <= HistoryLimit
    ensures StartsWithUser(r)
  {
    StripLeadingModel(LastN(Candidates(h), HistoryLimit))
  }

  /** The stored positions the turns of `NormalizeHistory(h)` come from. */
  function Origins(h: seq<StoredMsg>): (o: seq<nat>)
    ensures |o| == |NormalizeHistory(h)|
  {
    var idx := KeptIndices(h);
    var r := NormalizeHistory(h);
    assert |r| <= |idx|;
    idx[|idx| - |r|..]
  }

  /** Where the history sent to the reasoning API comes from: each turn is a usable stored
      message mapped to its role and text. */
  lemma NormalizeHistoryOrigins(h: seq<StoredMsg>)
    ensures forall k :: 0 <= k < |Origins(h)| ==>
      Origins(h)[k] < |h| && Usable(h[Origins(h)[k]]) && NormalizeHistory(h)[k] == ToTurn(h[Origins(h)[k]])
  {
    forall k | 0 <= k < |Origins(h)|
      ensures Origins(h)[k] < |h| && Usable(h[Origins(h)[k]]) && NormalizeHistory(h)[k] == ToTurn(h[Origins(h)[k]])
    {
      OriginOfTurn(h, k);
    }
  }

  lemma OriginOfTurn(h: seq<StoredMsg>, k: nat)
    requires k < |Origins(h)|
    ensures Origins(h)[k] < |h| && Usable(h[Origins(h)[k]])
    ensures NormalizeHistory(h)[k] == ToTurn(h[Origins(h)[k]])
  {
    var idx, t, r, o := KeptIndices(h), Candidates(h), NormalizeHistory(h), Origins(h);
    OriginsAreSuffix(h);
    var j := |idx| - |r| + k;
    assert o[k] == idx[j] by {
      SuffixAt(idx, o, |r|, k);
    }
    assert r[k] == t[j] by {
      SuffixAt(t, r, |r|, k);
    }
    CandidateAt(h, j);
  }

  lemma OriginsAreSuffix(h: seq<StoredMsg>)
    ensures var idx, t, r := KeptIndices(h), Candidates(h), NormalizeHistory(h);
      && |t| == |idx| && |r| <= |idx|
      && Origins(h) == idx[|idx| - |r|..] && r == t[|t| - |r|..]
  {
    StrippedWindowSuffix(Candidates(h));
  }

  lemma CandidateAt(h: seq<StoredMsg>, j: nat)
    requires j < |KeptIndices(h)|
    ensures KeptIndices(h)[j] < |h| && Usable(h[KeptIndices(h)[j]])
    ensures Candidates(h)[j] == ToTurn(h[KeptIndices(h)[j]])
  {
  }

  lemma SuffixAt<T>(s: seq<T>, u: seq<T>, n: nat, k: nat)
    requires n <= |s| && u == s[|s| - n..] && k < n
    ensures u[k] == s[|s| - n + k]
  {
  }

  /** The turns keep their stored order. */
  lemma NormalizeHistoryKeepsOrder(h: seq<StoredMsg>)
    ensures forall k, l :: 0 <= k < l < |Origins(h)| ==> Origins(h)[k] < Origins(h)[l]
  {
  }

  /** The turns are the newest usable messages, with none missing in between. */
  lemma NormalizeHistoryHasNoGaps(h: seq<StoredMsg>)
    ensures forall i :: 0 <= i < |h| && Usable(h[i]) && |Origins(h)| > 0 && i > Origins(h)[0] ==> i in Origins(h)
  {
    forall i | 0 <= i < |h| && Usable(h[i]) && |Origins(h)| > 0 && i > Origins(h)[0]
      ensures i in Origins(h)
    {
      NoGapAt(h, i);
    }
  }

  lemma NoGapAt(h: seq<StoredMsg>, i: nat)
    requires i < |h| && Usable(h[i]) && |Origins(h)| > 0 && i > Origins(h)[0]
    ensures i in Origins(h)
  {
    var idx, o := KeptIndices(h), Origins(h);
    OriginsAreSuffix(h);
    var s := |idx| - |o|;
    assert i in idx;
    var j :| 0 <= j < |idx| && idx[j] == i;
    assert o[0] == idx[s] by { SuffixAt(idx, o, |o|, 0); }
    assert j >= s;
    assert o[j - s] == i by { SuffixAt(idx, o, |o|, j - s); }
  }

  /** The size and the front of the history sent to the reasoning API: at most 15 turns,
      empty or starting with the customer, a suffix of the usable messages mapped to turns,
      and whatever it lost from the front of the newest 15 was the model's. */
  lemma NormalizeHistoryWindow(h: seq<StoredMsg>)
    ensures |NormalizeHistory(h)| <= HistoryLimit
    ensures StartsWithUser(NormalizeHistory(h))
    ensures NormalizeHistory(h) == Candidates(h)[|Candidates(h)| - |NormalizeHistory(h)|..]
    ensures forall k :: |Candidates(h)| - Capped(|Candidates(h)|) <= k < |Candidates(h)| - |NormalizeHistory(h)|
                        ==> Candidates(h)[k].role == Model
  {
    StrippedWindowSuffix(Candidates(h));
    StrippedWindowDropped(Candidates(h));
  }

  lemma StrippedWindowSuffix(t: seq<Turn>)
    ensures var r := StripLeadingModel(LastN(t, HistoryLimit)); r == t[|t| - |r|..]
  {
    var w := LastN(t, HistoryLimit);
    var r := StripLeadingModel(w);
    SuffixOfSuffix(t, |t| - |w|, |w| - |r|);
  }

  lemma SuffixOfSuffix(t: seq<Turn>, i: nat, j: nat)
    requires i <= |t| && j <= |t| - i
    ensures t[i..][j..] == t[i + j..]
  {
  }

  lemma StrippedWindowDropped(t: seq<Turn>)
    ensures var r := StripLeadingModel(LastN(t, HistoryLimit));
      forall k :: |t| - Capped(|t|) <= k < |t| - |r| ==> t[k].role == Model
  {
    var w := LastN(t, HistoryLimit);
    var r := StripLeadingModel(w);
    assert |w| == Capped(|t|);
    var dropped := w[..|w| - |r|];
    assert AllModel(dropped);
    forall k | |t| - |w| <= k < |t| - |r|
      ensures t[k].role == Model
    {
      assert dropped[k - (|t| - |w|)] == t[k];
    }
  }

  /** A stored history of usable messages whose newest message is the customer's is never
      emptied by normalisation: the customer's latest message is its last turn. */
  lemma NormalizeEndsWithLatestUserMessage(h: seq<StoredMsg>, text: string, ts: nat)
    requires text != []
    ensures var r := NormalizeHistory(h + [StoredMsg(UserRol, text, ts)]);
      r != [] && r[|r| - 1] == Turn(User, text)
  {
    var m := StoredMsg(UserRol, text, ts);
    var h' := h + [m];
    var idx := KeptIndices(h');
    assert Usable(h'[|h'| - 1]);
    assert |h'| - 1 in idx;
    var f := KeepUsable(h');
    assert f[|f| - 1] == m by {
      var k :| 0 <= k < |idx| && idx[k] == |h'| - 1;
    }
    var t := ToTurns(f);
    var w := LastN(t, HistoryLimit);
    assert w[|w| - 1] == Turn(User, text);
    LastIsUserSurvives(w);
  }

  lemma {:induction false} LastIsUserSurvives(w: seq<Turn>)
    requires w != [] && w[|w| - 1].role == User
    ensures var r := StripLeadingModel(w); r != [] && r[|r| - 1] == w[|w| - 1]
    decreases |w|
  {
    if w[0].role == Model {
      assert |w| > 1;
      assert w[1..][|w[1..]| - 1] == w[|w| - 1];
      LastIsUserSurvives(w[1..]);
    }
  }

  // ---------------------------------------------------------------------------------------
  // Transcript for the extraction request
  // ---------------------------------------------------------------------------------------

  /** `${role === 'user' ? 'Cliente' : 'Ana'}: ${text}`. */
  function TranscriptLine(t: Turn): string {
    (if t.role == User then UserLabel else ModelLabel) + t.text
  }

  /** One line per turn, in history order. */
  function Lines(h: seq<Turn>): (lines: seq<string>)
    ensures |lines| == |h| && forall i :: 0 <= i < |h| ==> lines[i] == TranscriptLine(h[i])
  {
    seq(|h|, i requires 0 <= i < |h| => TranscriptLine(h[i]))
  }

  /** The turns' lines joined with newlines, in history order. The transcript loses nothing:
      it is empty only for no turns, and when no turn's text contains a newline it reads back
      as the turns, with their roles, in order. */
  function Transcript(h: seq<Turn>): (s: string)
    ensures s == [] <==> h == []
    ensures SingleLine(h) ==> ParseTranscript(s) == Some(h)
  {
    var s := JsText.Join(Lines(h), '\n');
    LinesNotEmpty(h);
    if SingleLine(h) then LinesRoundTrip(h); s else s
  }

  /** A single turn's transcript is its line, newlines in its text included. */
  lemma TranscriptOfOne(t: Turn)
    ensures Transcript([t]) == TranscriptLine(t)
  {
    assert Lines([t]) == [TranscriptLine(t)];
  }

  /** The transcript of two non-empty histories is their transcripts joined by a newline;
      with `TranscriptOfOne` this fixes the transcript of every history, whatever its texts
      contain. */
  lemma TranscriptAppend(h1: seq<Turn>, h2: seq<Turn>)
    requires h1 != [] && h2 != []
    ensures Transcript(h1 + h2) == Transcript(h1) + "\n" + Transcript(h2)
  {
    assert Lines(h1 + h2) == Lines(h1) + Lines(h2);
    JsText.JoinAppend(Lines(h1), Lines(h2), '\n');
  }

  /** Reads one transcript line back into a turn. */
  function ParseLine(line: string): Option<Turn> {
    if |UserLabel| <= |line| && line[..|UserLabel|] == UserLabel then Some(Turn(User, line[|UserLabel|..]))
    else if |ModelLabel| <= |line| && line[..|ModelLabel|] == ModelLabel then Some(Turn(Model, line[|ModelLabel|..]))
    else None
  }

  function ParseLines(lines: seq<string>): (r: Option<seq<Turn>>)
    ensures r.Some? ==> |r.value| == |lines|
  {
    if lines == [] then Some([])
    else
      var t :- ParseLine(lines[0]);
      var rest :- ParseLines(lines[1..]);
      Some([t] + rest)
  }

  /** Reads a transcript back into turns. */
  function ParseTranscript(s: string): Option<seq<Turn>> {
    if s == [] then Some([]) else ParseLines(JsText.Split(s, '\n'))
  }

  predicate SingleLine(h: seq<Turn>) {
    forall i :: 0 <= i < |h| ==> '\n' !in h[i].text
  }

  lemma ParseLineOfTranscriptLine(t: Turn)
    ensures ParseLine(TranscriptLine(t)) == Some(t)
  {
    var line := TranscriptLine(t);
    if t.role == User {
      assert line[..|UserLabel|] == UserLabel;
      assert line[|UserLabel|..] == t.text;
    } else {
      assert line[..|ModelLabel|] == ModelLabel;
      assert line[|ModelLabel|..] == t.text;
      assert !(|UserLabel| <= |line| && line[..|UserLabel|] == UserLabel) by {
        if |UserLabel| <= |line| {
          assert line[0] == 'A' && UserLabel[0] == 'C';
        }
      }
    }
  }

  lemma {:induction false} ParseLinesOfLines(h: seq<Turn>)
    ensures ParseLines(Lines(h)) == Some(h)
    decreases |h|
  {
    var lines := Lines(h);
    if h != [] {
      ParseLineOfTranscriptLine(h[0]);
      assert lines[1..] == Lines(h[1..]);
      ParseLinesOfLines(h[1..]);
      assert [h[0]] + h[1..] == h;
    }
  }

  lemma LinesNotEmpty(h: seq<Turn>)
    ensures JsText.Join(Lines(h), '\n') == [] <==> h == []
  {
    if h != [] {
      var lines := Lines(h);
      assert lines[0] == TranscriptLine(h[0]);
      assert |UserLabel| > 0 && |ModelLabel| > 0;
    }
  }

  lemma LinesRoundTrip(h: seq<Turn>)
    requires SingleLine(h)
    ensures ParseTranscript(JsText.Join(Lines(h), '\n')) == Some(h)
  {
    var lines := Lines(h);
    if h != [] {
      forall k | 0 <= k < |lines| ensures '\n' !in lines[k] {
        var tag := if h[k].role == User then UserLabel else ModelLabel;
        assert lines[k] == tag + h[k].text;
        assert '\n' !in tag;
      }
      JsText.SplitJoin(lines, '\n');
      LinesNotEmpty(h);
      ParseLinesOfLines(h);
    }
  }

  // ---------------------------------------------------------------------------------------
  // Memory gate
  // ---------------------------------------------------------------------------------------

  /** The notes handed to the store's memory update: the extraction succeeded and its trimmed
      text is non-empty, is not the no-change marker, and differs from the notes the
      customer already has. */
  function MemoryGate(previous: string, extraction: Extraction): (w: Option<string>)
    ensures w.Some? <==>
      && extraction.Extracted?
      && JsText.Trim(extraction.text) != []
      && JsText.Trim(extraction.text) != NoChangeMarker
      && JsText.Trim(extraction.text) != previous
    ensures w.Some? ==> w.value == JsText.Trim(extraction.text) && JsText.Trimmed(w.value)
  {
    match extraction
    case ExtractionFailed => None
    case Extracted(text) =>
      var proposed := JsText.Trim(text);
      if proposed != [] && proposed != NoChangeMarker && proposed != previous then Some(proposed) else None
  }

  /** Once the notes hold what an extraction proposed, the same extraction writes nothing. */
  lemma MemoryGateSettles(previous: string, text: string)
    ensures match MemoryGate(previous, Extracted(text))
            case Some(w) => MemoryGate(w, Extracted(text)) == None
            case None => true
  {
  }

  // ---------------------------------------------------------------------------------------
  // generarRespuesta
  // ---------------------------------------------------------------------------------------

  /** The history array after `sendMessage` answered: the user's message and the model's
      reply are appended to it when the answer is a valid response. An answer with no
      text is not, and then the array is left as it was. */
  function Exchanged(h: seq<Turn>, message: string, reply: string): seq<Turn> {
    if reply == [] then h else h + [Turn(User, message), Turn(Model, reply)]
  }

  /** The transcript the extraction reads ends with the customer's message and Ana's reply,
      each on its own line after the earlier turns; after an empty reply it is the earlier
      turns' transcript alone. */
  lemma TranscriptEndsWithExchange(h: seq<Turn>, message: string, reply: string)
    ensures reply != [] ==>
      (Transcript(Exchanged(h, message, reply))
         == (if h == [] then "" else Transcript(h) + "\n") + UserLabel + message + "\n" + ModelLabel + reply)
    ensures reply == [] ==> Transcript(Exchanged(h, message, reply)) == Transcript(h)
  {
    if reply != [] {
      var e := [Turn(User, message), Turn(Model, reply)];
      ExchangeTranscript(message, reply);
      if h != [] {
        assert Exchanged(h, message, reply) == h + e;
        TranscriptAppend(h, e);
        TranscriptTail(Transcript(h) + "\n", UserLabel, message, ModelLabel, reply);
      } else {
        assert Exchanged(h, message, reply) == e;
        TranscriptTail("", UserLabel, message, ModelLabel, reply);
      }
    }
  }

  lemma ExchangeTranscript(message: string, reply: string)
    ensures Transcript([Turn(User, message), Turn(Model, reply)]) == UserLabel + message + "\n" + ModelLabel + reply
  {
    var u, m := Turn(User, message), Turn(Model, reply);
    TranscriptOfOne(u);
    TranscriptOfOne(m);
    TranscriptAppend([u], [m]);
    assert [u] + [m] == [u, m];
  }

  lemma TranscriptTail(p: string, a: string, b: string, c: string, d: string)
    ensures p + (a + b + "\n" + c + d) == p + a + b + "\n" + c + d
  {
  }

  /** The engine, given the customer's message, the stored history window, the notes on
      file, and the two reasoning requests: `ask(history, message)` for the reply and
      `extract(notes, transcript, message)` for the memory. The chat session keeps the
      history array it was started with and appends the message and the reply to it once
      the message is answered, so the transcript is made from the history followed by that
      exchange. */
  function Respond(
    message: string,
    history: seq<StoredMsg>,
    notes: string,
    ask: (seq<Turn>, string) -> ChatAnswer,
    extract: (string, string, string) -> Extraction): (e: EngineTurn)
    ensures var h := NormalizeHistory(history); var a := ask(h, message);
      && (a.ChatFailed? ==> e == EngineTurn(AiResult(FallbackText, NoAction), None))
      && (a.ChatAnswered? && a.calls == [] ==>
            && e.result == AiResult(a.text, NoAction)
            && e.memoryWrite == MemoryGate(notes, extract(notes, Transcript(Exchanged(h, message, a.text)), message)))
      && (a.ChatAnswered? && a.calls != [] ==>
            && e.memoryWrite == None
            && e.result == if a.calls[0] == SalesTool then AiResult(SalesHandoverText, HandoverSales)
                           else AiResult(a.text, NoAction))
  {
    var h := NormalizeHistory(history);
    match ask(h, message)
    case ChatFailed => EngineTurn(AiResult(FallbackText, NoAction), None)
    case ChatAnswered(text, calls) =>
      var write := if calls == [] then MemoryGate(notes, extract(notes, Transcript(Exchanged(h, message, text)), message)) else None;
      if calls != [] && calls[0] == SalesTool then EngineTurn(AiResult(SalesHandoverText, HandoverSales), write)
      else EngineTurn(AiResult(text, NoAction), write)
  }

  /** The memory extraction never changes the reply: whatever the extraction request
      answers, or if it fails, the controller gets the same result. */
  lemma ReplyIgnoresExtraction(
    message: string,
    history: seq<StoredMsg>,
    notes: string,
    ask: (seq<Turn>, string) -> ChatAnswer,
    extract1: (string, string, string) -> Extraction,
    extract2: (string, string, string) -> Extraction)
    ensures Respond(message, history, notes, ask, extract1).result == Respond(message, history, notes, ask, extract2).result
  {
  }

  /** Only the first function call counts: the calls after it change nothing. */
  lemma OnlyFirstCallMatters(
    message: string,
    history: seq<StoredMsg>,
    notes: string,
    text: string,
    first: string,
    later1: seq<string>,
    later2: seq<string>,
    extract: (string, string, string) -> Extraction)
    ensures Respond(message, history, notes, (h, m) => ChatAnswered(text, [first] + later1), extract)
         == Respond(message, history, notes, (h, m) => ChatAnswered(text, [first] + later2), extract)
  {
  }
}

=== FILE: chat.dfy ===
/** Vocabulary shared by the webhook controller, the store and both reply engines: stored
    chat messages, the reasoning API's turns, and the result a reply engine hands back. */
module Chat {

  /** The `rol` the controller stores for the customer's messages. */
  const UserRol: string := "usuario"

  /** The `rol` the controller stores for the assistant's replies. */
  const BotRol: string := "bot"

  /** The sentinel the extraction prompt asks for when memory has nothing new. */
  const NoChangeMarker: string := "SIN_CAMBIOS"

  /** One document of a customer's `historial_chat` sub-collection. An absent `rol` or
      `texto` is the empty string: JavaScript treats both as falsy alike. The timestamp is
      the store's server-assigned write time. */
  datatype StoredMsg = StoredMsg(rol: string, texto: string, timestamp: nat)

  /** Roles of the reasoning API's chat history. */
  datatype Role = User | Model

  /** One turn of the reasoning API's chat history (`{role, parts: [{text}]}`). */
  datatype Turn = Turn(role: Role, text: string)

  /** The `action` field of a reply engine's result: `null`, `"HANDOVER"` or
      `"HANDOVER_SALES"`. */
  datatype Action = NoAction | Handover | HandoverSales

  /** What a reply engine returns to the controller: `{ text, action }`. */
  datatype AiResult = AiResult(text: string, action: Action)

  /** `m.rol === 'usuario' ? 'user' : 'model'`. */
  function RoleOf(rol: string): (r: Role)
    ensures r == User <==> rol == UserRol
  {
    if rol == UserRol then User else Model
  }

  /** The reasoning API's rule for a history: it is empty or opens with a user turn. */
  predicate StartsWithUser(h: seq<Turn>) {
    h == [] || h[0].role == User
  }

  predicate AllModel(h: seq<Turn>) {
    forall i :: 0 <= i < |h| ==> h[i].role == Model
  }
}

=== FILE: database.dfy ===
/** The customer documents in the document store (src/services/database.js): fetching a
    profile, creating it on first contact, and writing the long-term notes the reply engine
    distils from the conversation. The store's failures are handed in as flags and
    `serverTimestamp()` as the time `now`. */
module Database {
  import opened Wrappers
  import opened Chat
  import JsText

  /** The name a new customer gets when the messaging profile carries none. */
  const DefaultName: string := "Amigo/a"

  /** Cleaned notes shorter than this many UTF-16 code units are not written. */
  const MinNotesLength: nat := 3

  /** A customer document: `perfil.nombre`, `notas_mascota` and the `metadata` fields.
      A timestamp field the document lacks is `None`; a missing text field is "". */
  datatype Profile = Profile(
    name: string,
    notes: string,
    needsHuman: bool,
    registeredAt: Option<nat>,
    lastInteraction: Option<nat>,
    notesUpdatedAt: Option<nat>,
    handoverAt: Option<nat>)

  /** The outcome of `obtenerOSetearCliente`: it rethrew a store error, or it gives the
      profile handed to the caller and the document as it now stands in the store. */
  datatype Fetch = FetchFailed | Fetched(profile: Profile, stored: Profile)

  /** `p` and `q` are the same document up to the time of the last visit. */
  predicate SameButVisit(p: Profile, q: Profile) {
    p.(lastInteraction := q.lastInteraction) == q
  }

  /** `obtenerOSetearCliente(id, name)`, given the document on file (if any), the name the
      messaging profile carries ("" when it has none), the time, and whether a store call
      throws. */
  function GetOrCreate(current: Option<Profile>, name: string, now: nat, fails: bool): (f: Fetch)
    ensures f.Fetched? <==> !fails
    ensures f.Fetched? ==> f.stored.lastInteraction == Some(now)
    ensures f.Fetched? && current.Some? ==> f.profile == current.value && SameButVisit(f.stored, current.value)
    ensures f.Fetched? && current.None? ==>
      && f.profile == f.stored
      && f.profile.name == (if name == [] then DefaultName else name)
      && f.profile.notes == []
      && !f.profile.needsHuman
      && f.profile.registeredAt == Some(now)
      && f.profile.notesUpdatedAt.None? && f.profile.handoverAt.None?
  {
    if fails then FetchFailed
    else
      match current
      case None =>
        var p := Profile(if name == [] then DefaultName else name, [], false, Some(now), Some(now), None, None);
        Fetched(p, p)
      case Some(p) => Fetched(p, p.(lastInteraction := Some(now)))
  }

  /** Every later visit finds the document the first one created or touched: the name of a
      later visit is ignored and nothing but the visit time is rewritten. */
  lemma {:induction false} LaterVisitFindsStored(current: Option<Profile>, name1: string, name2: string, t1: nat, t2: nat)
    requires GetOrCreate(current, name1, t1, false).Fetched?
    ensures var first := GetOrCreate(current, name1, t1, false).stored;
      && GetOrCreate(Some(first), name2, t2, false).profile == first
      && GetOrCreate(Some(first), name2, t2, false).stored.name == first.name
      && GetOrCreate(Some(first), name2, t2, false).stored.needsHuman == first.needsHuman
  {
  }

  /** `nuevasNotas.replace(/SIN_CAMBIOS/g, "").trim()` (an absent text counts as ""). */
  function CleanNotes(raw: string): (c: string)
    ensures JsText.Trimmed(c)
    ensures |c| <= |raw|
    ensures (forall i :: !JsText.OccursAt(raw, NoChangeMarker, i)) ==> c == JsText.Trim(raw)
  {
    if raw == [] then []
    else
      var removed := JsText.RemoveAll(raw, NoChangeMarker);
      TrimNoLonger(removed);
      JsText.Trim(removed)
  }

  lemma TrimNoLonger(s: string)
    ensures |JsText.Trim(s)| <= |s|
  {
  }

  /** The cleaned notes are long enough to be written. */
  predicate Accepted(raw: string) {
    CleanNotes(raw) != [] && JsText.Utf16Length(CleanNotes(raw)) >= MinNotesLength
  }

  /** `actualizarNotasMascota(id, raw)` on the document `p`: the cleaned notes replace the old
      ones, stamped with the time, when they are long enough and the update does not throw;
      otherwise the document is left as it was. It never fails. */
  function StoreNotes(p: Profile, raw: string, now: nat, fails: bool): (q: Profile)
    ensures Accepted(raw) && !fails ==> q.notes == CleanNotes(raw) && q.notesUpdatedAt == Some(now)
    ensures !Accepted(raw) || fails ==> q == p
    ensures q.(notes := p.notes, notesUpdatedAt := p.notesUpdatedAt) == p
    ensures q.notes != p.notes ==>
      JsText.Trimmed(q.notes) && JsText.Utf16Length(q.notes) >= MinNotesLength
  {
    var cleaned := CleanNotes(raw);
    if cleaned == [] || JsText.Utf16Length(cleaned) < MinNotesLength then p
    else if fails then p
    else p.(notes := cleaned, notesUpdatedAt := Some(now))
  }

  /** Writing the same extraction twice leaves the notes as writing it once. */
  lemma StoreNotesTwice(p: Profile, raw: string, t1: nat, t2: nat)
    ensures StoreNotes(StoreNotes(p, raw, t1, false), raw, t2, false).notes == StoreNotes(p, raw, t1, false).notes
  {
  }

  /** A marker in front of the notes is deleted and the rest cleaned as if it were absent. */
  lemma {:induction false} CleanNotesDropsLeadingMarker(t: string)
    ensures CleanNotes(NoChangeMarker + t) == CleanNotes(t)
  {
    JsText.RemoveAllDropsLeadingOccurrence(t, NoChangeMarker);
    if t == [] {
      assert JsText.RemoveAll(t, NoChangeMarker) == [];
    }
  }

  /** The bare marker cleans to nothing, so it is never written. */
  lemma MarkerAloneIsNotStored(p: Profile, now: nat)
    ensures StoreNotes(p, NoChangeMarker, now, false) == p
  {
    CleanNotesDropsLeadingMarker([]);
    assert NoChangeMarker + [] == NoChangeMarker;
  }

  /** The single pass does not see a marker that the deletion itself brings together:
      `SIN_SIN_CAMBIOSCAMBIOS` cleans to the marker, which is then written as the notes. */
  lemma NestedMarkerSurvives(p: Profile, raw: string, now: nat)
    requires raw == "SIN_SIN_CAMBIOSCAMBIOS"
    ensures CleanNotes(raw) == NoChangeMarker
    ensures StoreNotes(p, raw, now, false).notes == NoChangeMarker
  {
    NestedMarkerRemoval(raw);
    MarkerIsTrimmed();
    MarkerLength();
    CleanNotesOf(raw, NoChangeMarker);
    StoreNotesOf(p, raw, NoChangeMarker, now);
  }

  lemma CleanNotesOf(raw: string, c: string)
    requires raw != [] && JsText.RemoveAll(raw, NoChangeMarker) == c && JsText.Trim(c) == c
    ensures CleanNotes(raw) == c
  {
  }

  lemma StoreNotesOf(p: Profile, raw: string, c: string, now: nat)
    requires CleanNotes(raw) == c && c != [] && JsText.Utf16Length(c) >= MinNotesLength
    ensures StoreNotes(p, raw, now, false).notes == c
  {
  }

  lemma MarkerIsTrimmed()
    ensures JsText.Trim(NoChangeMarker) == NoChangeMarker
  {
    JsText.TrimOfTrimmed(NoChangeMarker);
  }

  lemma MarkerLength()
    ensures JsText.Utf16Length(NoChangeMarker) == 11
  {
    var m := NoChangeMarker;
    assert |m| == 11;
    assert forall i :: 0 <= i < |m| ==> m[i] as int <= 0xFFFF;
  }

  /** A worked example, for the one literal `SIN_SIN_CAMBIOSCAMBIOS`: removing every
      occurrence in one pass leaves the marker itself behind, so the reply still carries
      it. */
  lemma NestedMarkerRemoval(raw: string)
    requires raw == "SIN_SIN_CAMBIOSCAMBIOS"
    ensures raw != [] && JsText.RemoveAll(raw, NoChangeMarker) == NoChangeMarker
  {
    var tail := NoChangeMarker + "CAMBIOS";
    assert raw == "SIN_" + tail;
    NoMarkerInFront(tail);
    JsText.RemoveAllKeepsCleanPrefix("SIN_", tail, NoChangeMarker);
    JsText.RemoveAllDropsLeadingOccurrence("CAMBIOS", NoChangeMarker);
    MarkerHalves();
  }

  lemma MarkerHalves()
    ensures "SIN_" + "CAMBIOS" == NoChangeMarker
  {
  }

  /** Part of that worked example: the marker starts at none of the first four positions of
      the one literal. */
  lemma NoMarkerInFront(tail: string)
    requires tail == NoChangeMarker + "CAMBIOS"
    ensures forall i :: 0 <= i < |"SIN_"| ==> !JsText.OccursAt("SIN_" + tail, NoChangeMarker, i)
  {
    var raw := "SIN_" + tail;
    assert raw[0] == 'S' && raw[1] == 'I' && raw[2] == 'N' && raw[3] == '_' && raw[4] == 'S';
    assert forall i :: 0 <= i < 4 ==> !JsText.OccursAt(raw, NoChangeMarker, i);
  }

  /** The length bound counts UTF-16 code units: two pictographs outside the Basic
      Multilingual Plane make four units and are written. */
  lemma TwoPictographsAreStored(p: Profile, now: nat)
    ensures StoreNotes(p, "🐶🐾", now, false).notes == "🐶🐾"
  {
    var raw := "🐶🐾";
    assert |raw| == 2 < |NoChangeMarker|;
    assert JsText.RemoveAll(raw, NoChangeMarker) == raw;
    assert JsText.Trimmed(raw);
    JsText.TrimOfTrimmed(raw);
    assert CleanNotes(raw) == raw;
    assert JsText.Utf16Length(raw[1..]) == 2;
    assert JsText.Utf16Length(raw) == 4;
  }
}

=== FILE: js_text.dfy ===
/** The handful of JavaScript string built-ins the chatbot's decisions rest on, written out
    with their ECMAScript semantics: `trim`, `length` (in UTF-16 code units), `split`/`join`
    on one character, `replace(/literal/g, "")` and `parseInt(_, 10)`. */
module JsText {

  /** ECMAScript WhiteSpace and LineTerminator code points: the characters `trim` removes and
      `parseInt` skips before the number. */
  predicate IsJsSpace(c: char) {
    var n := c as int;
    n == 0x09 || n == 0x0B || n == 0x0C || n == 0x20 || n == 0xA0 || n == 0xFEFF
    || n == 0x1680 || (0x2000 <= n <= 0x200A) || n == 0x202F || n == 0x205F || n == 0x3000
    || n == 0x0A || n == 0x0D || n == 0x2028 || n == 0x2029
  }

  predicate AllSpace(s: string) {
    forall i :: 0 <= i < |s| ==> IsJsSpace(s[i])
  }

  /** A string `trim` leaves alone: it neither starts nor ends with a space. */
  predicate Trimmed(s: string) {
    s == [] || (!IsJsSpace(s[0]) && !IsJsSpace(s[|s| - 1]))
  }

  /** Drops leading spaces; what remains is a suffix of `s` behind an all-space prefix. */
  function TrimStart(s: string): (r: string)
    ensures |r| <= |s| && r == s[|s| - |r|..]
    ensures AllSpace(s[..|s| - |r|])
    ensures r == [] || !IsJsSpace(r[0])
  {
    if s != [] && IsJsSpace(s[0]) then TrimStart(s[1..]) else s
  }

  /** Drops trailing spaces; what remains is a prefix of `s` before an all-space suffix. */
  function TrimEnd(s: string): (r: string)
    ensures |r| <= |s| && r == s[..|r|]
    ensures AllSpace(s[|r|..])
    ensures r == [] || !IsJsSpace(r[|r| - 1])
  {
    if s != [] && IsJsSpace(s[|s| - 1]) then TrimEnd(s[..|s| - 1]) else s
  }

  /** `String.prototype.trim`. */
  function Trim(s: string): (r: string)
    ensures Trimmed(r)
    ensures exists i, j :: 0 <= i <= j <= |s| && r == s[i..j] && AllSpace(s[..i]) && AllSpace(s[j..])
  {
    TrimParts(s);
    TrimEnd(TrimStart(s))
  }

  lemma TrimParts(s: string)
    ensures var r := TrimEnd(TrimStart(s));
      && Trimmed(r)
      && exists i, j :: 0 <= i <= j <= |s| && r == s[i..j] && AllSpace(s[..i]) && AllSpace(s[j..])
  {
    var i := TrimStartAt(s);
    var k := TrimEndAt(TrimStart(s));
    TrimWitness(s, TrimStart(s), TrimEnd(TrimStart(s)), i, k);
  }

  /** Where `TrimStart` cuts `s`. */
  lemma TrimStartAt(s: string) returns (i: nat)
    ensures i <= |s| && TrimStart(s) == s[i..] && AllSpace(s[..i])
    ensures TrimStart(s) == [] || !IsJsSpace(TrimStart(s)[0])
  {
    i := |s| - |TrimStart(s)|;
  }

  /** Where `TrimEnd` cuts `t`. */
  lemma TrimEndAt(t: string) returns (k: nat)
    ensures k <= |t| && TrimEnd(t) == t[..k] && AllSpace(t[k..])
    ensures TrimEnd(t) == [] || !IsJsSpace(TrimEnd(t)[|TrimEnd(t)| - 1])
  {
    k := |TrimEnd(t)|;
  }

  lemma TrimWitness(s: string, t: string, r: string, i: nat, k: nat)
    requires i <= |s| && t == s[i..] && AllSpace(s[..i]) && (t == [] || !IsJsSpace(t[0]))
    requires k <= |t| && r == t[..k] && AllSpace(t[k..]) && (r == [] || !IsJsSpace(r[|r| - 1]))
    ensures Trimmed(r)
    ensures exists i, j :: 0 <= i <= j <= |s| && r == s[i..j] && AllSpace(s[..i]) && AllSpace(s[j..])
  {
    var j := i + k;
    if r != [] {
      assert r[0] == t[0];
    }
    assert r == s[i..j];
    assert s[j..] == t[k..];
    assert 0 <= i <= j <= |s| && r == s[i..j] && AllSpace(s[..i]) && AllSpace(s[j..]);
  }

  /** `trim` is determined by the shape of its input: whatever is wrapped in spaces and does
      not itself start or end with one is exactly what `trim` returns. */
  lemma {:induction false} TrimOfPadded(p: string, m: string, q: string)
    requires AllSpace(p) && AllSpace(q) && Trimmed(m)
    ensures Trim(p + m + q) == m
  {
    if m == [] {
      assert p + m + q == p + q;
      TrimStartOfSpaces(p + q);
    } else {
      assert p + m + q == p + (m + q);
      TrimStartOfPadded(p, m + q);
      TrimEndOfPadded(m, q);
    }
  }

  lemma {:induction false} TrimStartOfSpaces(s: string)
    requires AllSpace(s)
    ensures TrimStart(s) == []
    decreases |s|
  {
    if s != [] {
      TrimStartOfSpaces(s[1..]);
    }
  }

  lemma {:induction false} TrimStartOfPadded(p: string, t: string)
    requires AllSpace(p) && (t == [] || !IsJsSpace(t[0]))
    ensures TrimStart(p + t) == t
    decreases |p|
  {
    if p != [] {
      assert (p + t)[1..] == p[1..] + t;
      TrimStartOfPadded(p[1..], t);
    } else {
      assert p + t == t;
    }
  }

  lemma {:induction false} TrimEndOfPadded(m: string, q: string)
    requires AllSpace(q) && m != [] && !IsJsSpace(m[|m| - 1])
    ensures TrimEnd(m + q) == m
    decreases |q|
  {
    if q != [] {
      assert (m + q)[..|m + q| - 1] == m + q[..|q| - 1];
      TrimEndOfPadded(m, q[..|q| - 1]);
    } else {
      assert m + q == m;
    }
  }

  /** Trimming twice is trimming once. */
  lemma TrimIdempotent(s: string)
    ensures Trim(Trim(s)) == Trim(s)
  {
    TrimOfTrimmed(Trim(s));
  }

  /** A string that neither starts nor ends with a space is its own trim. */
  lemma TrimOfTrimmed(m: string)
    requires Trimmed(m)
    ensures Trim(m) == m
  {
    assert [] + m + [] == m;
    TrimOfPadded([], m, []);
  }

  /** `String.prototype.length`: the number of UTF-16 code units, two for every code point
      outside the Basic Multilingual Plane. */
  function Utf16Length(s: string): (n: nat)
    ensures |s| <= n <= 2 * |s|
    ensures n == |s| <==> forall i :: 0 <= i < |s| ==> s[i] as int <= 0xFFFF
  {
    if s == [] then 0
    else (if s[0] as int > 0xFFFF then 2 else 1) + Utf16Length(s[1..])
  }

  /** `pat` occurs in `s` starting at index `i`. */
  predicate OccursAt(s: string, pat: string, i: int) {
    0 <= i && i + |pat| <= |s| && s[i..i + |pat|] == pat
  }

  /** `s.replace(/pat/g, "")` for a literal pattern: one left-to-right pass that deletes each
      occurrence found and resumes the search right after it, so occurrences never overlap
      and text that comes together only after a deletion is kept. */
  function RemoveAll(s: string, pat: string): (r: string)
    requires pat != []
    ensures |r| <= |s|
    ensures (forall i :: !OccursAt(s, pat, i)) ==> r == s
    decreases |s|
  {
    if |s| < |pat| then s
    else if s[..|pat|] == pat then
      assert OccursAt(s, pat, 0);
      RemoveAll(s[|pat|..], pat)
    else
      var rest := RemoveAll(s[1..], pat);
      assert forall i :: OccursAt(s[1..], pat, i) ==> OccursAt(s, pat, i + 1) by {
        forall i | OccursAt(s[1..], pat, i) ensures OccursAt(s, pat, i + 1) {
          assert s[i + 1..i + 1 + |pat|] == s[1..][i..i + |pat|];
        }
      }
      [s[0]] + rest
  }

  /** Text in front of the first occurrence is copied through untouched. */
  lemma {:induction false} RemoveAllKeepsCleanPrefix(a: string, b: string, pat: string)
    requires pat != []
    requires forall i :: 0 <= i < |a| ==> !OccursAt(a + b, pat, i)
    ensures RemoveAll(a + b, pat) == a + RemoveAll(b, pat)
    decreases |a|
  {
    if a == [] {
      assert a + b == b;
    } else if |a + b| < |pat| {
      ShortIsKept(a, b, pat);
    } else {
      CleanPrefixShifts(a, b, pat);
      RemoveAllKeepsCleanPrefix(a[1..], b, pat);
      CleanHeadIsKept(a, b, pat);
    }
  }

  lemma ShortIsKept(a: string, b: string, pat: string)
    requires pat != [] && |a + b| < |pat|
    ensures RemoveAll(a + b, pat) == a + RemoveAll(b, pat)
  {
    assert RemoveAll(b, pat) == b;
  }

  lemma CleanHeadIsKept(a: string, b: string, pat: string)
    requires pat != [] && a != [] && |a + b| >= |pat| && !OccursAt(a + b, pat, 0)
    requires RemoveAll(a[1..] + b, pat) == a[1..] + RemoveAll(b, pat)
    ensures RemoveAll(a + b, pat) == a + RemoveAll(b, pat)
  {
    var s := a + b;
    HeadAndTailOfAppend(a, b, s);
    RemoveAllKeepsHead(s, pat);
    ConsThenAppend(a, RemoveAll(b, pat));
  }

  lemma HeadAndTailOfAppend(a: string, b: string, s: string)
    requires a != [] && s == a + b
    ensures s[0] == a[0] && s[1..] == a[1..] + b
  {
  }

  lemma ConsThenAppend(a: string, c: string)
    requires a != []
    ensures [a[0]] + (a[1..] + c) == a + c
  {
    assert a == [a[0]] + a[1..];
  }

  lemma RemoveAllKeepsHead(s: string, pat: string)
    requires pat != [] && |s| >= |pat| && !OccursAt(s, pat, 0)
    ensures RemoveAll(s, pat) == [s[0]] + RemoveAll(s[1..], pat)
  {
    assert s[..|pat|] != pat;
  }

  lemma CleanPrefixShifts(a: string, b: string, pat: string)
    requires a != []
    requires forall i :: 0 <= i < |a| ==> !OccursAt(a + b, pat, i)
    ensures forall i :: 0 <= i < |a[1..]| ==> !OccursAt(a[1..] + b, pat, i)
  {
    var s, t := a + b, a[1..] + b;
    forall i | 0 <= i < |a[1..]| ensures !OccursAt(t, pat, i) {
      assert !OccursAt(s, pat, i + 1);
      if i + |pat| <= |t| {
        assert t[i..i + |pat|] == s[i + 1..i + 1 + |pat|];
      }
    }
  }

  /** An occurrence at the front is deleted and scanning resumes after it. */
  lemma RemoveAllDropsLeadingOccurrence(b: string, pat: string)
    requires pat != []
    ensures RemoveAll(pat + b, pat) == RemoveAll(b, pat)
  {
    assert (pat + b)[..|pat|] == pat;
    assert (pat + b)[|pat|..] == b;
  }

  /** `split` on one separator character; like JavaScript it always yields at least one
      piece, and the pieces never contain the separator. */
  function Split(s: string, sep: char): (parts: seq<string>)
    ensures |parts| >= 1
    ensures forall k :: 0 <= k < |parts| ==> sep !in parts[k]
  {
    if s == [] then [[]]
    else if s[0] == sep then [[]] + Split(s[1..], sep)
    else
      var rest := Split(s[1..], sep);
      [[s[0]] + rest[0]] + rest[1..]
  }

  /** `Array.prototype.join` on one separator character. */
  function Join(parts: seq<string>, sep: char): (r: string)
    ensures parts == [] ==> r == []
    ensures parts != [] ==> |parts[0]| <= |r| && r[..|parts[0]|] == parts[0]
    ensures |parts| == 1 ==> r == parts[0]
    ensures |parts| >= 2 ==> |r| > |parts[0]| && r[|parts[0]|] == sep
  {
    if parts == [] then []
    else if |parts| == 1 then parts[0]
    else parts[0] + [sep] + Join(parts[1..], sep)
  }

  /** Joining two non-empty runs of parts is joining each and putting the separator
      between them. */
  lemma {:induction false} JoinAppend(a: seq<string>, b: seq<string>, sep: char)
    requires a != [] && b != []
    ensures Join(a + b, sep) == Join(a, sep) + [sep] + Join(b, sep)
    decreases |a|
  {
    var ab := a + b;
    assert ab[0] == a[0] && |ab| >= 2;
    if |a| == 1 {
      assert ab[1..] == b;
    } else {
      assert ab[1..] == a[1..] + b;
      JoinAppend(a[1..], b, sep);
      var x, y := Join(a[1..], sep), Join(b, sep);
      assert Join(ab, sep) == a[0] + [sep] + (x + [sep] + y);
      assert Join(a, sep) == a[0] + [sep] + x;
    }
  }

  lemma {:induction false} SplitOfPiece(p: string, sep: char)
    requires sep !in p
    ensures Split(p, sep) == [p]
    decreases |p|
  {
    if p != [] {
      SplitOfPiece(p[1..], sep);
      assert [p[0]] + p[1..] == p;
    }
  }

  lemma {:induction false} SplitOfPieceThenSep(p: string, sep: char, rest: string)
    requires sep !in p
    ensures Split(p + [sep] + rest, sep) == [p] + Split(rest, sep)
    decreases |p|
  {
    var s := p + [sep] + rest;
    if p == [] {
      assert s == [sep] + rest;
      assert s[1..] == rest;
    } else {
      assert s[1..] == p[1..] + [sep] + rest;
      SplitOfPieceThenSep(p[1..], sep, rest);
      assert [p[0]] + p[1..] == p;
    }
  }

  /** `split` undoes `join` when no piece contains the separator. */
  lemma {:induction false} SplitJoin(parts: seq<string>, sep: char)
    requires |parts| >= 1
    requires forall k :: 0 <= k < |parts| ==> sep !in parts[k]
    ensures Split(Join(parts, sep), sep) == parts
    decreases |parts|
  {
    if |parts| == 1 {
      SplitOfPiece(parts[0], sep);
    } else {
      SplitJoin(parts[1..], sep);
      SplitOfPieceThenSep(parts[0], sep, Join(parts[1..], sep));
      assert [parts[0]] + parts[1..] == parts;
    }
  }

  /** `s.split(sep).pop()`: the text after the last separator, or all of `s` when there is
      none. */
  function LastSegment(s: string, sep: char): (r: string)
    ensures sep !in r
    ensures |r| <= |s| && r == s[|s| - |r|..]
    ensures |r| < |s| ==> s[|s| - |r| - 1] == sep
  {
    if s == [] then []
    else if s[|s| - 1] == sep then []
    else LastSegment(s[..|s| - 1], sep) + [s[|s| - 1]]
  }

  /** `LastSegment` is indeed the last piece `split` produces. */
  lemma {:induction false} LastSegmentIsLastPiece(s: string, sep: char)
    ensures LastSegment(s, sep) == Split(s, sep)[|Split(s, sep)| - 1]
    decreases |s|
  {
    var r := LastSegment(s, sep);
    if |r| == |s| {
      assert r == s;
      SplitOfPiece(s, sep);
    } else {
      var p := s[..|s| - |r| - 1];
      assert s == p + [sep] + r;
      SplitOfLastPiece(p, sep, r);
    }
  }

  lemma {:induction false} SplitOfLastPiece(p: string, sep: char, r: string)
    requires sep !in r
    ensures var parts := Split(p + [sep] + r, sep); parts[|parts| - 1] == r
    decreases |p|
  {
    var s := p + [sep] + r;
    if p == [] {
      assert s[1..] == r;
      SplitOfPiece(r, sep);
    } else {
      assert s[1..] == p[1..] + [sep] + r;
      SplitOfLastPiece(p[1..], sep, r);
      var rest := Split(s[1..], sep);
      if s[0] != sep {
        assert |rest| >= 2 by { SplitHasTwoPieces(p[1..], sep, r); }
      }
    }
  }

  lemma {:induction false} SplitHasTwoPieces(p: string, sep: char, r: string)
    ensures |Split(p + [sep] + r, sep)| >= 2
    decreases |p|
  {
    var s := p + [sep] + r;
    if p != [] {
      assert s[1..] == p[1..] + [sep] + r;
      SplitHasTwoPieces(p[1..], sep, r);
    } else {
      assert s[1..] == r;
    }
  }

  // ---------------------------------------------------------------------------------------
  // parseInt(_, 10)
  // ---------------------------------------------------------------------------------------

  /** A JavaScript number as far as `parseInt` can produce one. */
  datatype Number = NaN | Num(value: int)

  predicate IsDigit(c: char) {
    '0' <= c <= '9'
  }

  predicate AllDigits(s: string) {
    forall i :: 0 <= i < |s| ==> IsDigit(s[i])
  }

  /** The longest run of decimal digits at the front of `s`. */
  function DigitPrefix(s: string): (d: string)
    ensures |d| <= |s| && d == s[..|d|] && AllDigits(d)
    ensures |d| < |s| ==> !IsDigit(s[|d|])
  {
    if s != [] && IsDigit(s[0]) then [s[0]] + DigitPrefix(s[1..]) else []
  }

  /** The value of a run of decimal digits, most significant first. */
  function DigitsValue(d: string): nat
    requires AllDigits(d)
  {
    if d == [] then 0
    else 10 * DigitsValue(d[..|d| - 1]) + (d[|d| - 1] as int - '0' as int)
  }

  /** A decimal digit, possibly behind one sign character, opens `t`. */
  predicate StartsWithNumber(t: string) {
    (t != [] && IsDigit(t[0])) || (|t| >= 2 && (t[0] == '+' || t[0] == '-') && IsDigit(t[1]))
  }

  /** `parseInt(s, 10)`: skip leading white space, read an optional sign, then as many
      decimal digits as there are; no digits at all gives NaN. */
  function ParseInt(s: string): (r: Number)
    ensures r.Num? <==> StartsWithNumber(TrimStart(s))
    ensures r.Num? && r.value < 0 ==> TrimStart(s)[0] == '-'
  {
    var t := TrimStart(s);
    var d := DigitPrefix(Unsigned(t));
    NumberStart(t);
    if d == [] then NaN
    else
      var v: int := DigitsValue(d);
      Num(if t[0] == '-' then -v else v)
  }

  /** `t` without one leading sign character. */
  function Unsigned(t: string): string {
    if t != [] && (t[0] == '-' || t[0] == '+') then t[1..] else t
  }

  lemma NumberStart(t: string)
    ensures DigitPrefix(Unsigned(t)) != [] <==> StartsWithNumber(t)
    ensures DigitPrefix(Unsigned(t)) != [] ==> t != []
  {
  }

  /** Decimal rendering of a natural number, without leading zeros. */
  function NatToDecimal(n: nat): (d: string)
    ensures d != [] && AllDigits(d)
    ensures |d| > 1 ==> d[0] != '0'
  {
    if n < 10 then [(n + '0' as int) as char]
    else NatToDecimal(n / 10) + [((n % 10) + '0' as int) as char]
  }

  lemma {:induction false} DigitsValueOfDecimal(n: nat)
    ensures DigitsValue(NatToDecimal(n)) == n
  {
    var d := NatToDecimal(n);
    if n >= 10 {
      DigitsValueOfDecimal(n / 10);
      assert d[..|d| - 1] == NatToDecimal(n / 10);
    }
  }

  lemma {:induction false} DigitPrefixOfDigits(d: string)
    requires AllDigits(d)
    ensures DigitPrefix(d) == d
    decreases |d|
  {
    if d != [] {
      DigitPrefixOfDigits(d[1..]);
    }
  }

  lemma {:induction false} DigitPrefixOfDigitsThen(d: string, rest: string)
    requires AllDigits(d) && (rest == [] || !IsDigit(rest[0]))
    ensures DigitPrefix(d + rest) == d
    decreases |d|
  {
    if d != [] {
      assert (d + rest)[1..] == d[1..] + rest;
      DigitPrefixOfDigitsThen(d[1..], rest);
    } else {
      assert d + rest == rest;
    }
  }

  /** `parseInt` skips leading white space, honours one sign, reads the digits that follow
      and ignores whatever comes after them: `" -12abc"` reads as -12. */
  lemma ParseIntOfPadded(w: string, sgn: string, d: string, rest: string)
    requires AllSpace(w)
    requires sgn == [] || sgn == "+" || sgn == "-"
    requires d != [] && AllDigits(d)
    requires rest == [] || !IsDigit(rest[0])
    ensures ParseInt(w + sgn + d + rest) == Num(if sgn == "-" then -(DigitsValue(d) as int) else DigitsValue(d))
  {
    var t := sgn + d + rest;
    SignThenDigits(sgn, d, rest);
    var s := w + sgn + d + rest;
    PaddedSigned(w, sgn, d, rest, t, s);
    DigitPrefixOfDigitsThen(d, rest);
    ParseIntOfStart(s, t, d + rest, d, sgn == "-");
  }

  lemma PaddedSigned(w: string, sgn: string, d: string, rest: string, t: string, s: string)
    requires AllSpace(w) && t == sgn + d + rest && t != [] && !IsJsSpace(t[0])
    requires s == w + sgn + d + rest
    ensures TrimStart(s) == t
  {
    assert s == w + t by {
      Assoc(w, sgn, d);
      Assoc(w, sgn + d, rest);
    }
    TrimStartOfPadded(w, t);
  }

  lemma Assoc(a: string, b: string, c: string)
    ensures a + b + c == a + (b + c)
  {
  }

  lemma ParseIntOfStart(s: string, t: string, u: string, d: string, neg: bool)
    requires TrimStart(s) == t && t != [] && (t[0] == '-' <==> neg)
    requires u == Unsigned(t)
    requires DigitPrefix(u) == d && d != []
    ensures ParseInt(s) == Num(if neg then -(DigitsValue(d) as int) else DigitsValue(d))
  {
  }

  lemma SignThenDigits(sgn: string, d: string, rest: string)
    requires sgn == [] || sgn == "+" || sgn == "-"
    requires d != [] && AllDigits(d)
    ensures var t := sgn + d + rest;
      && t != [] && !IsJsSpace(t[0])
      && (t[0] == '-' <==> sgn == "-")
      && (if t[0] == '-' || t[0] == '+' then t[1..] else t) == d + rest
  {
    var t := sgn + d + rest;
    assert IsDigit(d[0]);
    if sgn == [] {
      assert t == d + rest;
    } else {
      assert t[0] == sgn[0];
      assert t[1..] == d + rest;
    }
  }

  /** Leading zeros do not change the value read: `"007"` reads as 7. */
  lemma {:induction false} LeadingZeroIgnored(d: string)
    requires AllDigits(d)
    ensures DigitsValue("0" + d) == DigitsValue(d)
    decreases |d|
  {
    var z := "0" + d;
    if d != [] {
      assert z[..|z| - 1] == "0" + d[..|d| - 1];
      assert z[|z| - 1] == d[|d| - 1];
      LeadingZeroIgnored(d[..|d| - 1]);
    } else {
      assert z[..|z| - 1] == [];
    }
  }

  /** `parseInt` reads back what `NatToDecimal` writes. */
  lemma {:induction false} ParseIntOfDecimal(n: nat)
    ensures ParseInt(NatToDecimal(n)) == Num(n)
  {
    var d := NatToDecimal(n);
    assert !IsJsSpace(d[0]) by {
      assert IsDigit(d[0]);
    }
    assert TrimStart(d) == d;
    assert d[0] != '-' && d[0] != '+';
    DigitPrefixOfDigits(d);
    DigitsValueOfDecimal(n);
  }
}

=== FILE: json.dfy ===
/** `JSON.stringify` on strings and booleans, as ECMAScript specifies it (QuoteJSONString),
    together with a reader for the text it produces, so that what the catalog tool hands back
    to the reasoning API can be shown to carry the product data without loss. */
module Json {
  import opened Wrappers

  /** Lower-case hexadecimal digit of a value below 16. */
  function HexDigit(n: nat): (c: char)
    requires n < 16
  {
    if n < 10 then (n + '0' as int) as char else (n - 10 + 'a' as int) as char
  }

  /** Value of a hexadecimal digit, either case. */
  function HexValue(c: char): Option<nat> {
    if '0' <= c <= '9' then Some(c as int - '0' as int)
    else if 'a' <= c <= 'f' then Some(c as int - 'a' as int + 10)
    else if 'A' <= c <= 'F' then Some(c as int - 'A' as int + 10)
    else None
  }

  /** How `JSON.stringify` writes one character inside a string literal: the quote, the
      backslash and the five control characters with short forms get a two-character escape,
      every other control character a `\u00xx` escape, and everything else stands for
      itself. */
  function EscapeChar(c: char): (e: string)
    ensures e != [] && (e[0] == '\\' || e == [c])
    ensures e[0] != '"'
    ensures e == [c] <==> Plain(c)
  {
    if c == '"' then "\\\""
    else if c == '\\' then "\\\\"
    else if c == '\U{8}' then "\\b"
    else if c == '\t' then "\\t"
    else if c == '\n' then "\\n"
    else if c == '\U{C}' then "\\f"
    else if c == '\r' then "\\r"
    else if c as int < 0x20 then
      "\\u00" + [HexDigit(c as int / 16), HexDigit(c as int % 16)]
    else [c]
  }

  /** A character `JSON.stringify` writes as itself. */
  predicate Plain(c: char) {
    c != '"' && c != '\\' && c as int >= 0x20
  }

  /** The body of a JSON string literal for `s`: never shorter than `s`, and `s` itself
      when every character is plain. */
  function Escape(s: string): (r: string)
    ensures |r| >= |s|
    ensures (forall i :: 0 <= i < |s| ==> Plain(s[i])) ==> r == s
  {
    if s == [] then [] else EscapeChar(s[0]) + Escape(s[1..])
  }

  /** `JSON.stringify(s)` for a string `s`: the escaped body between two quotes. */
  function Quote(s: string): (q: string)
    ensures |q| >= |s| + 2 && q[0] == '"' && q[|q| - 1] == '"'
    ensures (forall i :: 0 <= i < |s| ==> Plain(s[i])) ==> q == "\"" + s + "\""
  {
    "\"" + Escape(s) + "\""
  }

  /** `JSON.stringify(b)` for a boolean `b`. */
  function Bool(b: bool): string {
    if b then "true" else "false"
  }

  /** `s` with the literal `lit` removed from its front, if it starts with it. */
  function Expect(lit: string, s: string): (r: Option<string>)
    ensures r.Some? <==> |lit| <= |s| && s[..|lit|] == lit
    ensures r.Some? ==> s == lit + r.value
  {
    if |lit| <= |s| && s[..|lit|] == lit then Some(s[|lit|..]) else None
  }

  /** A text that starts with `lit` loses exactly `lit`. */
  lemma ExpectOfPrefix(lit: string, t: string)
    ensures Expect(lit, lit + t) == Some(t)
  {
    assert (lit + t)[..|lit|] == lit;
    assert (lit + t)[|lit|..] == t;
  }

  /** Reads the body of a string literal up to and including its closing quote, undoing the
      escapes; gives the decoded text and what follows the quote. A raw control character
      below U+0020 is not allowed inside a JSON string, so it fails the read. */
  function ReadStringBody(s: string): (r: Option<(string, string)>)
    ensures r.Some? ==> |r.value.1| < |s|
    decreases |s|
  {
    if s == [] then None
    else if s[0] == '"' then Some(([], s[1..]))
    else if s[0] as int < 0x20 then None
    else if s[0] != '\\' then
      var (t, rest) :- ReadStringBody(s[1..]);
      Some(([s[0]] + t, rest))
    else if |s| < 2 then None
    else
      var e := s[1];
      if e == 'u' then
        if |s| < 6 then None
        else
          var h0 :- HexValue(s[2]);
          var h1 :- HexValue(s[3]);
          var h2 :- HexValue(s[4]);
          var h3 :- HexValue(s[5]);
          var code := ((h0 * 16 + h1) * 16 + h2) * 16 + h3;
          if 0xD800 <= code < 0xE000 then None
          else
            var (t, rest) :- ReadStringBody(s[6..]);
            Some(([code as char] + t, rest))
      else
        var c :- Unescape(e);
        var (t, rest) :- ReadStringBody(s[2..]);
        Some(([c] + t, rest))
  }

  /** A raw control character inside a string literal is rejected, whatever follows it. */
  lemma RawControlRejected(c: char, rest: string)
    requires c as int < 0x20
    ensures ReadStringBody([c] + rest) == None
  {
    assert ([c] + rest)[0] == c;
  }

  /** The character a two-character escape `\e` stands for. */
  function Unescape(e: char): Option<char> {
    if e == '"' then Some('"')
    else if e == '\\' then Some('\\')
    else if e == '/' then Some('/')
    else if e == 'b' then Some('\U{8}')
    else if e == 'f' then Some('\U{C}')
    else if e == 'n' then Some('\n')
    else if e == 'r' then Some('\r')
    else if e == 't' then Some('\t')
    else None
  }

  /** Reads one string literal from the front of `s`. */
  function ReadString(s: string): (r: Option<(string, string)>)
    ensures r.Some? ==> |r.value.1| < |s|
  {
    var body :- Expect("\"", s);
    ReadStringBody(body)
  }

  /** Reads `true` or `false` from the front of `s`. */
  function ReadBool(s: string): (r: Option<(bool, string)>)
    ensures r.Some? ==> |r.value.1| < |s|
  {
    match Expect("true", s)
    case Some(rest) => Some((true, rest))
    case None =>
      var rest :- Expect("false", s);
      Some((false, rest))
  }

  lemma {:induction false} ReadStringBodyOfEscapedChar(c: char, t: string)
    ensures ReadStringBody(EscapeChar(c) + t) ==
              match ReadStringBody(t)
              case Some((x, rest)) => Some(([c] + x, rest))
              case None => None
  {
    var s := EscapeChar(c) + t;
    if c == '"' || c == '\\' || c == '\U{8}' || c == '\t' || c == '\n' || c == '\U{C}' || c == '\r' {
      assert s[2..] == t;
    } else if c as int < 0x20 {
      var n := c as int;
      assert s[2..6] == ['0', '0', HexDigit(n / 16), HexDigit(n % 16)];
      assert HexValue(HexDigit(n / 16)) == Some(n / 16);
      assert HexValue(HexDigit(n % 16)) == Some(n % 16);
      assert ((0 * 16 + 0) * 16 + n / 16) * 16 + n % 16 == n;
      assert s[6..] == t;
    } else {
      assert s[1..] == t;
    }
  }

  /** Reading back a string literal written by `JSON.stringify` yields the original text
      and leaves whatever followed the literal. */
  lemma {:induction false} ReadStringOfQuote(v: string, rest: string)
    ensures ReadString(Quote(v) + rest) == Some((v, rest))
  {
    assert Quote(v) + rest == "\"" + (Escape(v) + "\"" + rest);
    ReadStringBodyOfEscape(v, rest);
  }

  lemma {:induction false} ReadStringBodyOfEscape(v: string, rest: string)
    ensures ReadStringBody(Escape(v) + "\"" + rest) == Some((v, rest))
    decreases |v|
  {
    if v == [] {
      assert Escape(v) + "\"" + rest == "\"" + rest;
    } else {
      assert Escape(v) + "\"" + rest == EscapeChar(v[0]) + (Escape(v[1..]) + "\"" + rest);
      ReadStringBodyOfEscape(v[1..], rest);
      ReadStringBodyOfEscapedChar(v[0], Escape(v[1..]) + "\"" + rest);
      assert [v[0]] + v[1..] == v;
    }
  }

  /** Reading back a boolean written by `JSON.stringify`. */
  lemma ReadBoolOfBool(b: bool, rest: string)
    ensures ReadBool(Bool(b) + rest) == Some((b, rest))
  {
    if b {
      assert (Bool(b) + rest)[..4] == "true";
    } else {
      assert (Bool(b) + rest)[..5] == "false";
      assert (Bool(b) + rest)[..4] != "true" by {
        assert (Bool(b) + rest)[0] == 'f';
      }
    }
  }
}

=== FILE: legacy_ai.dfy ===
/** The earlier reply service (src/services/ai.js), which the controller no longer calls: it
    sends the whole stored history after dropping at most one leading model turn, runs the
    first function the reasoning API calls (a catalog search or a hand-over to a person),
    and asks a second time with that function's result. The reasoning API and the catalog
    request are functions handed in by the caller. */
module LegacyAi {
  import opened Wrappers
  import opened Chat
  import Json
  import Shopify
  import AiEngine

  const SearchTool: string := "buscarProductosShopify"
  const HumanTool: string := "escalarAHumano"

  /** What the search tool reports when the catalog gives nothing. */
  const NoProductsText: string := "No se encontraron productos con ese nombre."

  /** What the hand-over tool reports. */
  const HandoverConfirmed: string := "Escalamiento confirmado."

  /** The reply when either request to the reasoning API throws. */
  const FallbackText: string := "Estoy teniendo un pequeño lapus mental 😵‍💫. ¿Me podrías repetir eso?"

  /** The `args` object of a function call, with its `keyword` member if present. */
  datatype Args = Args(keyword: Option<string>)

  /** A function call: its name and its `args`, `None` when the call carries none. */
  datatype FunctionCall = FunctionCall(name: string, args: Option<Args>)

  /** The keyword as the catalog search interpolates it: a missing one becomes the text
      `undefined`. */
  function KeywordText(k: Option<string>): (t: string)
    ensures k.Some? ==> t == k.value
    ensures k.None? ==> t == "undefined"
  {
    if k.Some? then k.value else "undefined"
  }

  /** The first answer: it threw, or its text and the function calls, in order. */
  datatype FirstAnswer = FirstFailed | FirstAnswered(text: string, calls: seq<FunctionCall>)

  /** The answer to the function response: it threw, or its text. */
  datatype SecondAnswer = SecondFailed | SecondAnswered(text: string)

  /** What running a function gives: the result text sent back and the action reported. */
  datatype ToolOutcome = ToolOutcome(result: string, action: Action)

  // ---------------------------------------------------------------------------------------
  // History
  // ---------------------------------------------------------------------------------------

  /** `if (first is model) shift()`: one leading model turn goes, and only one. */
  function DropOneLeadingModel(t: seq<Turn>): (r: seq<Turn>)
    ensures t != [] && t[0].role == Model ==> r == t[1..]
    ensures t == [] || t[0].role == User ==> r == t
  {
    if t != [] && t[0].role == Model then t[1..] else t
  }

  /** Every stored message mapped to a turn, unfiltered and uncapped, minus one leading model
      turn. */
  function LegacyHistory(h: seq<StoredMsg>): (r: seq<Turn>)
    ensures |r| == |h| || |r| == |h| - 1
    ensures r == AiEngine.ToTurns(h[|h| - |r|..])
    ensures |r| == |h| - 1 <==> h != [] && RoleOf(h[0].rol) == Model
  {
    var t := AiEngine.ToTurns(h);
    assert h != [] ==> t[0] == AiEngine.ToTurn(h[0]);
    var n: nat := if t != [] && t[0].role == Model then 1 else 0;
    ToTurnsOfSuffix(h, n);
    DropOneLeadingModel(t)
  }

  /** Mapping a suffix of the stored messages gives the same suffix of their turns. */
  lemma ToTurnsOfSuffix(h: seq<StoredMsg>, n: nat)
    requires n <= |h|
    ensures AiEngine.ToTurns(h)[n..] == AiEngine.ToTurns(h[n..])
  {
    var t, u := AiEngine.ToTurns(h), AiEngine.ToTurns(h[n..]);
    forall k | 0 <= k < |u| ensures t[n..][k] == u[k] {
      assert h[n..][k] == h[n + k];
    }
  }

  /** The earlier rule agrees with the live one (drop every leading model turn) exactly when
      the turns do not open with two model turns. */
  lemma DropOneAgreesWithStrip(t: seq<Turn>)
    ensures DropOneLeadingModel(t) == AiEngine.StripLeadingModel(t) <==>
      !(|t| >= 2 && t[0].role == Model && t[1].role == Model)
  {
    if |t| >= 2 && t[0].role == Model && t[1].role == Model {
      TwoLeadingModelTurnsBreakTheRule(t);
    } else if t != [] && t[0].role == Model {
      assert DropOneLeadingModel(t) == t[1..];
      assert AiEngine.StripLeadingModel(t) == AiEngine.StripLeadingModel(t[1..]);
      assert AiEngine.StripLeadingModel(t[1..]) == t[1..];
    }
  }

  /** So two bot messages in a row at the front leave a history the reasoning API rejects. */
  lemma TwoLeadingModelTurnsBreakTheRule(t: seq<Turn>)
    requires |t| >= 2 && t[0].role == Model && t[1].role == Model
    ensures !StartsWithUser(DropOneLeadingModel(t))
  {
  }

  // ---------------------------------------------------------------------------------------
  // The search tool's JSON
  // ---------------------------------------------------------------------------------------

  /** `{ titulo, precio, id, disponible }` made from a product. */
  datatype View = View(titulo: string, precio: string, id: string, disponible: bool)

  function ToView(p: Shopify.Product): View {
    View(p.title, p.price, p.variantId, p.available)
  }

  function ToViews(ps: seq<Shopify.Product>): (vs: seq<View>)
    ensures |vs| == |ps| && forall i :: 0 <= i < |ps| ==> vs[i] == ToView(ps[i])
  {
    seq(|ps|, i requires 0 <= i < |ps| => ToView(ps[i]))
  }

  const TituloKey: string := "{\"titulo\":"
  const PrecioKey: string := ",\"precio\":"
  const IdKey: string := ",\"id\":"
  const DisponibleKey: string := ",\"disponible\":"

  /** `JSON.stringify` of one view, members in declaration order, followed by `rest`. */
  function ViewJson(v: View, rest: string): string {
    TituloKey + (Json.Quote(v.titulo) + (PrecioKey + (Json.Quote(v.precio) + (IdKey + (Json.Quote(v.id)
    + (DisponibleKey + (Json.Bool(v.disponible) + ("}" + rest))))))))
  }

  /** The array members separated by commas, followed by `rest`. */
  function ItemsJson(vs: seq<View>, rest: string): string
    decreases |vs|
  {
    if vs == [] then rest
    else if |vs| == 1 then ViewJson(vs[0], rest)
    else ViewJson(vs[0], "," + ItemsJson(vs[1..], rest))
  }

  /** `JSON.stringify` of an array of views: an array text that reads back as exactly the
      views, in order. */
  function ViewsJson(vs: seq<View>): (s: string)
    ensures s != [] && s[0] == '['
    ensures ReadViews(s) == Some(vs)
  {
    var s := "[" + ItemsJson(vs, "]");
    ItemsRoundTrip(vs);
    s
  }

  /** Reads one view object from the front of `s`. */
  function ReadView(s: string): (r: Option<(View, string)>)
    ensures r.Some? ==> |r.value.1| < |s|
  {
    var a :- Json.Expect(TituloKey, s);
    var (titulo, a2) :- Json.ReadString(a);
    var b :- Json.Expect(PrecioKey, a2);
    var (precio, b2) :- Json.ReadString(b);
    var c :- Json.Expect(IdKey, b2);
    var (id, c2) :- Json.ReadString(c);
    var d :- Json.Expect(DisponibleKey, c2);
    var (disponible, d2) :- Json.ReadBool(d);
    var e :- Json.Expect("}", d2);
    Some((View(titulo, precio, id, disponible), e))
  }

  /** Reads the members of a non-empty array and its closing bracket, which must end `s`. */
  function ReadItems(s: string): Option<seq<View>>
    decreases |s|
  {
    var (v, rest) :- ReadView(s);
    if rest != [] && rest[0] == ',' then
      var more :- ReadItems(rest[1..]);
      Some([v] + more)
    else if rest == "]" then Some([v])
    else None
  }

  /** Reads an array of views that makes up all of `s`. */
  function ReadViews(s: string): Option<seq<View>> {
    var body :- Json.Expect("[", s);
    if body == "]" then Some([]) else ReadItems(body)
  }

  lemma ReadViewOfViewJson(v: View, rest: string)
    ensures ReadView(ViewJson(v, rest)) == Some((v, rest))
  {
    var e := "}" + rest;
    var d := Json.Bool(v.disponible) + e;
    var c := Json.Quote(v.id) + (DisponibleKey + d);
    var b := Json.Quote(v.precio) + (IdKey + c);
    var a := Json.Quote(v.titulo) + (PrecioKey + b);
    Json.ExpectOfPrefix(TituloKey, a);
    Json.ReadStringOfQuote(v.titulo, PrecioKey + b);
    Json.ExpectOfPrefix(PrecioKey, b);
    Json.ReadStringOfQuote(v.precio, IdKey + c);
    Json.ExpectOfPrefix(IdKey, c);
    Json.ReadStringOfQuote(v.id, DisponibleKey + d);
    Json.ExpectOfPrefix(DisponibleKey, d);
    Json.ReadBoolOfBool(v.disponible, e);
    Json.ExpectOfPrefix("}", rest);
  }

  lemma {:induction false} ReadItemsOfItems(vs: seq<View>)
    requires vs != []
    ensures ReadItems(ItemsJson(vs, "]")) == Some(vs)
    decreases |vs|
  {
    if |vs| == 1 {
      ReadItemsOfOne(vs);
    } else {
      ReadItemsOfItems(vs[1..]);
      ReadItemsStep(vs);
    }
  }

  lemma ReadItemsOfOne(vs: seq<View>)
    requires |vs| == 1
    ensures ReadItems(ItemsJson(vs, "]")) == Some(vs)
  {
    ReadViewOfViewJson(vs[0], "]");
    ReadItemsOfLast(ItemsJson(vs, "]"), vs[0]);
    assert [vs[0]] == vs;
  }

  lemma ReadItemsStep(vs: seq<View>)
    requires |vs| >= 2 && ReadItems(ItemsJson(vs[1..], "]")) == Some(vs[1..])
    ensures ReadItems(ItemsJson(vs, "]")) == Some(vs)
  {
    var tail := ItemsJson(vs[1..], "]");
    ItemsJsonOfMany(vs);
    var s := ItemsJson(vs, "]");
    ReadViewOfViewJson(vs[0], "," + tail);
    ReadItemsOfNext(s, vs[0], tail);
    HeadThenTail(vs);
  }

  lemma ItemsJsonOfMany(vs: seq<View>)
    requires |vs| >= 2
    ensures ItemsJson(vs, "]") == ViewJson(vs[0], "," + ItemsJson(vs[1..], "]"))
  {
  }

  lemma HeadThenTail(vs: seq<View>)
    requires vs != []
    ensures [vs[0]] + vs[1..] == vs
  {
  }

  lemma ReadItemsOfLast(s: string, v: View)
    requires ReadView(s) == Some((v, "]"))
    ensures ReadItems(s) == Some([v])
  {
  }

  lemma ReadItemsOfNext(s: string, v: View, tail: string)
    requires ReadView(s) == Some((v, "," + tail)) && ReadItems(tail).Some?
    ensures ReadItems(s) == Some([v] + ReadItems(tail).value)
  {
    assert ("," + tail)[1..] == tail;
  }

  lemma ItemsRoundTrip(vs: seq<View>)
    ensures ReadViews("[" + ItemsJson(vs, "]")) == Some(vs)
  {
    Json.ExpectOfPrefix("[", ItemsJson(vs, "]"));
    if vs != [] {
      ReadItemsOfItems(vs);
      assert ItemsJson(vs, "]")[0] == '{';
    }
  }

  // ---------------------------------------------------------------------------------------
  // Running a function call
  // ---------------------------------------------------------------------------------------

  /** The result and action for the first function call: a catalog search reports the
      products as JSON, or the no-products text when there are none; a hand-over reports the
      confirmation and the hand-over action; any other name reports "" and no action. A
      catalog search on a call without `args` throws reading `args.keyword` (`None`). */
  function RunTool(call: FunctionCall, request: Shopify.ProductsQuery -> Shopify.SearchResponse): (o: Option<ToolOutcome>)
    ensures o.None? <==> call.name == SearchTool && call.args.None?
    ensures o.Some? ==> (o.value.action == Handover <==> call.name == HumanTool)
    ensures o.Some? ==> o.value.action != HandoverSales
    ensures o.Some? ==> (o.value.result == [] <==> call.name != SearchTool && call.name != HumanTool)
    ensures call.name == HumanTool ==> o == Some(ToolOutcome(HandoverConfirmed, Handover))
    ensures call.name == SearchTool && call.args.Some? ==>
      var ps := Shopify.SearchProducts(KeywordText(call.args.value.keyword), request);
      if ps == [] then o == Some(ToolOutcome(NoProductsText, NoAction))
      else o.Some? && o.value.action == NoAction && ReadViews(o.value.result) == Some(ToViews(ps))
  {
    if call.name == SearchTool then
      match call.args
      case None => None
      case Some(args) =>
        var ps := Shopify.SearchProducts(KeywordText(args.keyword), request);
        if |ps| > 0 then
          Some(ToolOutcome(ViewsJson(ToViews(ps)), NoAction))
        else Some(ToolOutcome(NoProductsText, NoAction))
    else if call.name == HumanTool then Some(ToolOutcome(HandoverConfirmed, Handover))
    else Some(ToolOutcome([], NoAction))
  }

  /** A search call without a keyword searches for the text `undefined`. */
  lemma MissingKeywordSearchesUndefined(request: Shopify.ProductsQuery -> Shopify.SearchResponse)
    ensures var o := RunTool(FunctionCall(SearchTool, Some(Args(None))), request);
      var ps := Shopify.SearchProducts("undefined", request);
      o.Some? && (ps == [] <==> o.value.result == NoProductsText)
      && Shopify.SearchQuery("undefined").query == "undefined" + Shopify.ActiveFilter
  {
    var o := RunTool(FunctionCall(SearchTool, Some(Args(None))), request);
    var ps := Shopify.SearchProducts("undefined", request);
    if ps != [] {
      NoProductsTextIsNoArray();
    }
  }

  /** The model can tell an empty catalog from a list: the no-products text never reads as
      an array. */
  lemma NoProductsTextIsNoArray()
    ensures ReadViews(NoProductsText) == None
  {
    assert NoProductsText[0] != '[';
  }

  // ---------------------------------------------------------------------------------------
  // generarRespuesta (earlier version)
  // ---------------------------------------------------------------------------------------

  /** The earlier service, given the message, the stored history, the first request
      `ask(history, message)`, the second request `answer(history, message, name, result)`
      and the catalog request. Anything that throws on the way, the two requests or a search
      call without `args`, ends in the fallback text. */
  function Respond(
    message: string,
    history: seq<StoredMsg>,
    ask: (seq<Turn>, string) -> FirstAnswer,
    answer: (seq<Turn>, string, string, string) -> SecondAnswer,
    request: Shopify.ProductsQuery -> Shopify.SearchResponse): (r: AiResult)
    ensures var t := LegacyHistory(history); var a := ask(t, message);
      && (a.FirstFailed? ==> r == AiResult(FallbackText, NoAction))
      && (a.FirstAnswered? && a.calls == [] ==> r == AiResult(a.text, NoAction))
      && (a.FirstAnswered? && a.calls != [] ==>
            match RunTool(a.calls[0], request)
            case None => r == AiResult(FallbackText, NoAction)
            case Some(o) =>
              var b := answer(t, message, a.calls[0].name, o.result);
              r == if b.SecondFailed? then AiResult(FallbackText, NoAction) else AiResult(b.text, o.action))
  {
    var t := LegacyHistory(history);
    match ask(t, message)
    case FirstFailed => AiResult(FallbackText, NoAction)
    case FirstAnswered(text, calls) =>
      if calls == [] then AiResult(text, NoAction)
      else
        match RunTool(calls[0], request)
        case None => AiResult(FallbackText, NoAction)
        case Some(o) =>
          match answer(t, message, calls[0].name, o.result)
          case SecondFailed => AiResult(FallbackText, NoAction)
          case SecondAnswered(text2) => AiResult(text2, o.action)
  }

  /** The earlier service reports a hand-over only when the first call asks for a person, and
      never the sales hand-over the controller acts on. */
  lemma HandoverOnlyFromHumanTool(
    message: string,
    history: seq<StoredMsg>,
    ask: (seq<Turn>, string) -> FirstAnswer,
    answer: (seq<Turn>, string, string, string) -> SecondAnswer,
    request: Shopify.ProductsQuery -> Shopify.SearchResponse)
    ensures var r := Respond(message, history, ask, answer, request);
      var a := ask(LegacyHistory(history), message);
      && r.action != HandoverSales
      && (r.action == Handover ==> a.FirstAnswered? && a.calls != [] && a.calls[0].name == HumanTool)
  {
  }

  /** Only the first function call is run: the calls after it change nothing. */
  lemma LegacyOnlyFirstCallMatters(
    message: string,
    history: seq<StoredMsg>,
    text: string,
    first: FunctionCall,
    later1: seq<FunctionCall>,
    later2: seq<FunctionCall>,
    answer: (seq<Turn>, string, string, string) -> SecondAnswer,
    request: Shopify.ProductsQuery -> Shopify.SearchResponse)
    ensures Respond(message, history, (h, m) => FirstAnswered(text, [first] + later1), answer, request)
         == Respond(message, history, (h, m) => FirstAnswered(text, [first] + later2), answer, request)
  {
  }
}

=== FILE: shopify.dfy ===
/** The data shaping around the commerce platform: the catalog search request, the mapping of
    its GraphQL answer to product records, and the body of a manual order. The HTTP calls
    themselves are outcomes handed in as parameters. */
module Shopify {
  import opened Wrappers
  import JsText

  /** Appended to every keyword so that archived products are never offered. */
  const ActiveFilter: string := " AND status:ACTIVE"

  /** How many products a search asks for. */
  const SearchPageSize: nat := 5

  const PendingStatus: string := "pending"
  const OrderTag: string := "pedido-whatsapp"

  /** The parameters of the `products(first:, query:)` GraphQL field. */
  datatype ProductsQuery = ProductsQuery(first: nat, query: string)

  /** A variant node: `variants(first: 1)` yields at most one. */
  datatype VariantNode = VariantNode(id: string, availableForSale: bool, price: string)

  /** A product node; `totalInventory` may be null. */
  datatype ProductNode = ProductNode(
    title: string,
    totalInventory: Option<int>,
    minPriceAmount: string,
    minPriceCurrency: string,
    variants: seq<VariantNode>)

  /** The `data` member of the answer; `products` may be missing. */
  datatype ProductsData = ProductsData(products: Option<seq<ProductNode>>)

  /** The answer to the search request: the request threw, or a body whose `data` may be
      missing. */
  datatype SearchResponse = RequestFailed | Answered(data: Option<ProductsData>)

  /** A product as the rest of the system sees it. */
  datatype Product = Product(title: string, price: string, currency: string, available: bool, variantId: string)

  /** The query for a keyword: the keyword as given, then the active-status filter. */
  function SearchQuery(keyword: string): (q: ProductsQuery)
    ensures q.first == SearchPageSize
    ensures |q.query| == |keyword| + |ActiveFilter|
    ensures KeywordOf(q.query) == Some(keyword)
  {
    ProductsQuery(SearchPageSize, keyword + ActiveFilter)
  }

  /** The keyword a query was built from, if it carries the active-status filter. */
  function KeywordOf(query: string): Option<string> {
    if |ActiveFilter| <= |query| && query[|query| - |ActiveFilter|..] == ActiveFilter
    then Some(query[..|query| - |ActiveFilter|])
    else None
  }

  /** `available`: stock on hand, or else the first variant is for sale. */
  predicate Available(n: ProductNode)
    requires n.variants != []
  {
    (n.totalInventory.Some? && n.totalInventory.value > 0) || n.variants[0].availableForSale
  }

  /** The product record for a node; a node without a variant makes the source throw a
      TypeError, modelled as `None`. */
  function ToProduct(n: ProductNode): (p: Option<Product>)
    ensures p.Some? <==> n.variants != []
  {
    if n.variants == [] then None
    else Some(Product(n.title, n.minPriceAmount, n.minPriceCurrency, Available(n), n.variants[0].id))
  }

  predicate AllHaveVariant(nodes: seq<ProductNode>) {
    forall i :: 0 <= i < |nodes| ==> nodes[i].variants != []
  }

  /** `edges.map(...)`: all nodes convert, or the map throws part-way. */
  function MapNodes(nodes: seq<ProductNode>): (r: Option<seq<Product>>)
    ensures r.Some? <==> AllHaveVariant(nodes)
    ensures r.Some? ==>
      |r.value| == |nodes| && forall i :: 0 <= i < |nodes| ==> Some(r.value[i]) == ToProduct(nodes[i])
  {
    if nodes == [] then Some([])
    else
      match ToProduct(nodes[0])
      case None => None
      case Some(p) =>
        match MapNodes(nodes[1..])
        case None =>
          assert !AllHaveVariant(nodes) by {
            var j :| 0 <= j < |nodes[1..]| && nodes[1..][j].variants == [];
            assert nodes[j + 1].variants == [];
          }
          None
        case Some(ps) =>
          assert forall i :: 1 <= i < |nodes| ==> nodes[i] == nodes[1..][i - 1];
          Some([p] + ps)
  }

  /** `buscarProductos` after the request: every failure along the way (the request
      throwing, a missing `data` or `data.products`, a node without a variant) gives the
      empty list; otherwise one product per edge, in edge order, with the minimum variant
      price, its currency, the availability rule and the first variant's id. */
  function SearchResults(resp: SearchResponse): (ps: seq<Product>)
    ensures resp.RequestFailed? || resp.data.None? || resp.data.value.products.None? ==> ps == []
    ensures resp.Answered? && resp.data.Some? && resp.data.value.products.Some? ==>
      var nodes := resp.data.value.products.value;
      if AllHaveVariant(nodes) then
        |ps| == |nodes| &&
        forall i :: 0 <= i < |nodes| ==>
          && ps[i].title == nodes[i].title
          && ps[i].price == nodes[i].minPriceAmount
          && ps[i].currency == nodes[i].minPriceCurrency
          && ps[i].variantId == nodes[i].variants[0].id
          && (ps[i].available <==>
                (nodes[i].totalInventory.Some? && nodes[i].totalInventory.value > 0)
                || nodes[i].variants[0].availableForSale)
      else ps == []
  {
    match resp
    case RequestFailed => []
    case Answered(None) => []
    case Answered(Some(ProductsData(None))) => []
    case Answered(Some(ProductsData(Some(nodes)))) => MapNodes(nodes).GetOr([])
  }

  /** `buscarProductos(keyword)`, with `request` standing for the GraphQL call: the query is
      built from the keyword and the answer shaped by `SearchResults`. */
  function SearchProducts(keyword: string, request: ProductsQuery -> SearchResponse): (ps: seq<Product>)
    ensures ps != [] ==> var resp := request(SearchQuery(keyword));
      resp.Answered? && resp.data.Some? && resp.data.value.products.Some?
      && |ps| == |resp.data.value.products.value|
  {
    SearchResults(request(SearchQuery(keyword)))
  }

  /** The search maps edges one by one: the products of two runs of edges are the products of
      each run, in order. */
  lemma MapNodesAppend(a: seq<ProductNode>, b: seq<ProductNode>)
    requires AllHaveVariant(a) && AllHaveVariant(b)
    ensures MapNodes(a + b) == Some(MapNodes(a).value + MapNodes(b).value)
  {
    AllHaveVariantAppend(a, b);
    var ab := a + b;
    var r, x, y := MapNodes(ab).value, MapNodes(a).value, MapNodes(b).value;
    assert |r| == |x + y|;
    forall i | 0 <= i < |r| ensures r[i] == (x + y)[i] {
      assert Some(r[i]) == ToProduct(ab[i]);
      if i < |a| {
        assert ab[i] == a[i] && Some(x[i]) == ToProduct(a[i]);
      } else {
        assert ab[i] == b[i - |a|] && Some(y[i - |a|]) == ToProduct(b[i - |a|]);
      }
    }
    assert r == x + y;
  }

  lemma AllHaveVariantAppend(a: seq<ProductNode>, b: seq<ProductNode>)
    requires AllHaveVariant(a) && AllHaveVariant(b)
    ensures AllHaveVariant(a + b)
  {
    var ab := a + b;
    forall i | 0 <= i < |ab| ensures ab[i].variants != [] {
      if i < |a| { assert ab[i] == a[i]; } else { assert ab[i] == b[i - |a|]; }
    }
  }

  // ---------------------------------------------------------------------------------------
  // crearPedidoManual
  // ---------------------------------------------------------------------------------------

  /** An item the caller wants ordered: a variant id (a GraphQL global id such as
      `gid://shopify/ProductVariant/123`) and a quantity. */
  datatype OrderItem = OrderItem(variantId: string, quantity: int)

  /** A line of the REST order body; `variant_id` is a JavaScript number, possibly NaN. */
  datatype LineItem = LineItem(variantId: JsText.Number, quantity: int)

  datatype Buyer = Buyer(firstName: string, lastName: string, email: string)

  /** The `order` object posted to the REST `orders` endpoint. */
  datatype OrderRequest = OrderRequest(
    lineItems: seq<LineItem>,
    buyer: Buyer,
    financialStatus: string,
    tags: string)

  /** What the platform answered: the post threw, or a body whose `order` may be missing. */
  datatype PostOutcome = PostFailed | Posted(order: Option<CreatedOrder>)

  datatype CreatedOrder = CreatedOrder(name: string, totalPrice: string)

  /** `{ orderNumber, totalPrice }` returned to the caller. */
  datatype OrderSummary = OrderSummary(orderNumber: string, totalPrice: string)

  /** `crearPedidoManual` either returns a summary or rethrows. */
  datatype OrderResult = Placed(summary: OrderSummary) | OrderFailed

  /** `seg` is the text after the last slash of `s`: a slash-free suffix of `s` that is all
      of `s` or sits right behind a slash. */
  predicate IsLastSegment(s: string, seg: string) {
    '/' !in seg && |seg| <= |s| && s[|s| - |seg|..] == seg && (|seg| < |s| ==> s[|s| - |seg| - 1] == '/')
  }

  /** `parseInt(variantId.split('/').pop(), 10)` with the quantity copied through. */
  function ToLineItem(item: OrderItem): (l: LineItem)
    ensures l.quantity == item.quantity
    ensures exists seg :: IsLastSegment(item.variantId, seg) && l.variantId == JsText.ParseInt(seg)
  {
    var seg := JsText.LastSegment(item.variantId, '/');
    assert IsLastSegment(item.variantId, seg);
    LineItem(JsText.ParseInt(JsText.LastSegment(item.variantId, '/')), item.quantity)
  }

  /** The numeric id at the end of a global id is what the line item carries, whatever
      precedes the last slash. */
  lemma {:induction false} ToLineItemOfGlobalId(prefix: string, n: nat, quantity: int)
    ensures ToLineItem(OrderItem(prefix + "/" + JsText.NatToDecimal(n), quantity)).variantId == JsText.Num(n)
  {
    var d := JsText.NatToDecimal(n);
    var s := prefix + "/" + d;
    assert '/' !in d by {
      forall i | 0 <= i < |d| ensures d[i] != '/' {
        assert JsText.IsDigit(d[i]);
      }
    }
    LastSegmentOfSuffix(prefix + "/", d);
    assert JsText.LastSegment(s, '/') == d;
    JsText.ParseIntOfDecimal(n);
  }

  lemma {:induction false} LastSegmentOfSuffix(p: string, d: string)
    requires p != [] && p[|p| - 1] == '/' && '/' !in d
    ensures JsText.LastSegment(p + d, '/') == d
    decreases |d|
  {
    if d == [] {
      assert p + d == p;
    } else {
      assert (p + d)[..|p + d| - 1] == p + d[..|d| - 1];
      LastSegmentOfSuffix(p, d[..|d| - 1]);
    }
  }

  /** The order body: one line per item, in item order, marked pending payment and tagged
      as a WhatsApp order. */
  function BuildOrder(items: seq<OrderItem>, buyer: Buyer): (o: OrderRequest)
    ensures |o.lineItems| == |items|
    ensures forall i :: 0 <= i < |items| ==> o.lineItems[i] == ToLineItem(items[i])
    ensures o.buyer == buyer && o.financialStatus == PendingStatus && o.tags == OrderTag
  {
    OrderRequest(seq(|items|, i requires 0 <= i < |items| => ToLineItem(items[i])), buyer, PendingStatus, OrderTag)
  }

  /** Items whose variant ids are global ids ending in `/<n>` become line items carrying the
      numbers `n` and the quantities, position by position. */
  lemma BuildOrderCarriesIds(prefixes: seq<string>, ns: seq<nat>, qs: seq<int>, buyer: Buyer)
    requires |prefixes| == |ns| == |qs|
    ensures var items := seq(|ns|, i requires 0 <= i < |ns| => OrderItem(prefixes[i] + "/" + JsText.NatToDecimal(ns[i]), qs[i]));
      var o := BuildOrder(items, buyer);
      |o.lineItems| == |ns| && forall i :: 0 <= i < |ns| ==> o.lineItems[i] == LineItem(JsText.Num(ns[i]), qs[i])
  {
    var items := seq(|ns|, i requires 0 <= i < |ns| => OrderItem(prefixes[i] + "/" + JsText.NatToDecimal(ns[i]), qs[i]));
    var o := BuildOrder(items, buyer);
    forall i | 0 <= i < |ns| ensures o.lineItems[i] == LineItem(JsText.Num(ns[i]), qs[i]) {
      ToLineItemOfGlobalId(prefixes[i], ns[i], qs[i]);
    }
  }

  /** `crearPedidoManual`, with `post` standing for the REST call: the body `BuildOrder`
      makes is posted, a failed post and an answer without an order are both rethrown,
      never swallowed, and otherwise the order's name and total come back. */
  function PlaceOrder(items: seq<OrderItem>, buyer: Buyer, post: OrderRequest -> PostOutcome): (r: OrderResult)
    ensures var answer := post(BuildOrder(items, buyer));
      && (r.Placed? <==> answer.Posted? && answer.order.Some?)
      && (r.Placed? ==>
            r.summary.orderNumber == answer.order.value.name && r.summary.totalPrice == answer.order.value.totalPrice)
  {
    match post(BuildOrder(items, buyer))
    case PostFailed => OrderFailed
    case Posted(None) => OrderFailed
    case Posted(Some(order)) => Placed(OrderSummary(order.name, order.totalPrice))
  }
}

=== FILE: whatsapp.dfy ===
/** The webhook controller (`handleMessage` in src/controllers/whatsapp.js) as a step
    function: one request against the state of the document store and the outbox of sent
    messages gives a response and the next state. Every `await` that can throw is named by
    an `IoStep`; the environment says which one, if any, throws, and the effects of the steps
    before it stay in place. The server clock stamps each write and then moves on. */
module WhatsApp {
  import opened Wrappers
  import opened Chat
  import JsText
  import Database
  import AiEngine

  /** The token the messaging platform must present to verify the webhook. */
  const VerifyToken: string := "mm_verificacion_123"

  /** The `object` of an envelope the controller answers. */
  const BusinessAccount: string := "whatsapp_business_account"

  /** How many stored messages the history query reads (`limit(15)`). */
  const WindowSize: nat := 15

  // ---------------------------------------------------------------------------------------
  // Requests and responses
  // ---------------------------------------------------------------------------------------

  /** `hub.verify_token` and `hub.challenge` of a verification request. */
  datatype Query = Query(verifyToken: Option<string>, challenge: Option<string>)

  /** An inbound message: the sender and `text.body`, if the message has a text body. */
  datatype Message = Message(from: string, textBody: Option<string>)

  /** `entry[0].changes[0].value`: its messages, `metadata.phone_number_id` and
      `contacts[0].profile.name` if present. `phoneNumberId` is `None` when `metadata` itself is
      missing, which throws; metadata without `phone_number_id` reads as `Some("undefined")`,
      the text the send call then interpolates into its URL. */
  datatype Value = Value(messages: seq<Message>, phoneNumberId: Option<string>, contactName: Option<string>)

  datatype Change = Change(value: Option<Value>)
  datatype Entry = Entry(changes: seq<Change>)
  /** The notification body: its `object` and its `entry` list. */
  datatype Envelope = Envelope(objectName: string, entries: seq<Entry>)

  /** A verification request, or a notification whose body may be missing. */
  datatype Request = Get(query: Query) | Post(body: Option<Envelope>)

  /** The status sent back and, for a verification, the text sent with it. */
  datatype Response = Response(status: nat, body: Option<string>)

  const Ok: Response := Response(200, None)
  const Forbidden: Response := Response(403, None)
  const ServerError: Response := Response(500, None)

  // ---------------------------------------------------------------------------------------
  // State and environment
  // ---------------------------------------------------------------------------------------

  /** A message handed to the messaging platform: sender phone id, recipient, text. */
  datatype Outgoing = Outgoing(phoneNumberId: string, to: string, text: string)

  /** The customer documents, each customer's `historial_chat` in insertion order, the
      messages sent so far, and the server clock. */
  datatype World = World(
    profiles: map<string, Database.Profile>,
    histories: map<string, seq<StoredMsg>>,
    outbox: seq<Outgoing>,
    clock: nat)

  /** The `await`s of the controller that can throw, in the order they run. */
  datatype IoStep = ProfileFetch | UserAppend | HistoryQuery | NotesWrite | Send | ReplyAppend | HandoverWrite

  /** The two reasoning requests the reply engine makes, and the step that throws, if any. */
  datatype Env = Env(
    ask: (seq<Turn>, string) -> AiEngine.ChatAnswer,
    extract: (string, string, string) -> AiEngine.Extraction,
    fault: Option<IoStep>)

  /** What a request leads to. */
  datatype Outcome = Outcome(response: Response, world: World)

  predicate Fails(env: Env, step: IoStep) {
    env.fault == Some(step)
  }

  function HistoryOf(w: World, id: string): seq<StoredMsg> {
    if id in w.histories then w.histories[id] else []
  }

  /** Stored messages in strictly increasing timestamp order. */
  predicate Ascending(h: seq<StoredMsg>) {
    forall i, j :: 0 <= i < j < |h| ==> h[i].timestamp < h[j].timestamp
  }

  /** Every stored message is older than `clock`. */
  predicate Before(h: seq<StoredMsg>, clock: nat) {
    forall i :: 0 <= i < |h| ==> h[i].timestamp < clock
  }

  /** Every history is in timestamp order and older than the clock, so insertion order is
      timestamp order. */
  predicate Valid(w: World) {
    forall id :: id in w.histories ==> Ascending(w.histories[id]) && Before(w.histories[id], w.clock)
  }

  // ---------------------------------------------------------------------------------------
  // The history query
  // ---------------------------------------------------------------------------------------

  function Reverse<T>(s: seq<T>): (r: seq<T>)
    ensures |r| == |s| && forall i :: 0 <= i < |s| ==> r[i] == s[|s| - 1 - i]
  {
    seq(|s|, i requires 0 <= i < |s| => s[|s| - 1 - i])
  }

  /** `limit(n)`. */
  function Take<T>(s: seq<T>, n: nat): (r: seq<T>)
    ensures |r| == if |s| < n then |s| else n
    ensures r == s[..|r|]
  {
    if |s| <= n then s else s[..n]
  }

  /** `orderBy('timestamp', 'desc').limit(15)` and `.reverse()`, on a history whose insertion
      order is its timestamp order: the newest 15 messages, oldest first, which are the last
      15 in insertion order. */
  function Window(h: seq<StoredMsg>): (r: seq<StoredMsg>)
    ensures r == AiEngine.LastN(h, WindowSize)
  {
    NewestReversedIsSuffix(h, WindowSize);
    Reverse(Take(Reverse(h), WindowSize))
  }

  lemma NewestReversedIsSuffix<T>(h: seq<T>, n: nat)
    ensures Reverse(Take(Reverse(h), n)) == AiEngine.LastN(h, n)
  {
    var w, l := Reverse(Take(Reverse(h), n)), AiEngine.LastN(h, n);
    assert |w| == |l|;
    forall k | 0 <= k < |w| ensures w[k] == l[k] {
      assert w[k] == Take(Reverse(h), n)[|w| - 1 - k];
    }
  }

  /** On a history in timestamp order the window is in timestamp order and every message
      left out is older than every message read. */
  lemma WindowHoldsNewest(h: seq<StoredMsg>)
    requires Ascending(h)
    ensures Ascending(Window(h))
    ensures forall i, k :: 0 <= i < |h| - |Window(h)| && 0 <= k < |Window(h)| ==> h[i].timestamp < Window(h)[k].timestamp
  {
    var w := Window(h);
    assert forall k :: 0 <= k < |w| ==> w[k] == h[|h| - |w| + k];
  }

  /** The window after a message is appended is the 14 newest before it, then that
      message. */
  lemma WindowOfAppended(h: seq<StoredMsg>, m: StoredMsg)
    ensures Window(h + [m]) == AiEngine.LastN(h, WindowSize - 1) + [m]
  {
    var l := AiEngine.LastN(h + [m], WindowSize);
    var l' := AiEngine.LastN(h, WindowSize - 1);
    assert |l| == |l'| + 1;
    forall k | 0 <= k < |l| ensures l[k] == (l' + [m])[k] {
      if k < |l'| {
        assert l[k] == (h + [m])[|h| + 1 - |l| + k];
      }
    }
  }

  // ---------------------------------------------------------------------------------------
  // handleMessage
  // ---------------------------------------------------------------------------------------

  /** `body.entry[0].changes[0].value` and its first message, when the envelope is from the
      business account and carries a message; `None` is what makes the controller answer 200
      and stop. */
  function Inbound(e: Envelope): (r: Option<(Message, Value)>)
    ensures r.Some? <==>
      && e.objectName == BusinessAccount
      && e.entries != [] && e.entries[0].changes != []
      && e.entries[0].changes[0].value.Some?
      && e.entries[0].changes[0].value.value.messages != []
    ensures r.Some? ==>
      r.value.1 == e.entries[0].changes[0].value.value && r.value.0 == r.value.1.messages[0]
  {
    if e.objectName != BusinessAccount || e.entries == [] || e.entries[0].changes == [] then None
    else
      match e.entries[0].changes[0].value
      case None => None
      case Some(v) => if v.messages == [] then None else Some((v.messages[0], v))
  }

  /** `message.text?.body?.trim() || ""`. */
  function InboundText(m: Message): (t: string)
    ensures JsText.Trimmed(t)
    ensures m.textBody.None? ==> t == []
    ensures m.textBody.Some? ==> t == JsText.Trim(m.textBody.value)
    ensures m.textBody.Some? ==>
      var b := m.textBody.value;
      exists i, j :: 0 <= i <= j <= |b| && t == b[i..j] && JsText.AllSpace(b[..i]) && JsText.AllSpace(b[j..])
  {
    match m.textBody
    case None => []
    case Some(b) => JsText.Trim(b)
  }

  /** Nothing outside customer `from` changes, sent messages are only appended and only to
      `from`, and the clock does not go back. */
  predicate Confined(w: World, w': World, from: string) {
    && w'.profiles.Keys - {from} == w.profiles.Keys - {from}
    && (forall id :: id != from && id in w.profiles ==> id in w'.profiles && w'.profiles[id] == w.profiles[id])
    && w'.histories.Keys - {from} == w.histories.Keys - {from}
    && (forall id :: id != from && id in w.histories ==> id in w'.histories && w'.histories[id] == w.histories[id])
    && |w.outbox| <= |w'.outbox| && w'.outbox[..|w.outbox|] == w.outbox
    && (forall k :: |w.outbox| <= k < |w'.outbox| ==> w'.outbox[k].to == from)
    && w.clock <= w'.clock
  }

  /** No customer document disappears and no hand-over flag is cleared. */
  predicate FlagsKept(w: World, w': World) {
    forall id :: id in w.profiles ==> id in w'.profiles && (w.profiles[id].needsHuman ==> w'.profiles[id].needsHuman)
  }

  /** Appending a message stamped with the current clock, then moving the clock on, keeps
      every history in timestamp order and older than the clock. */
  lemma AppendStampedKeepsValid(w: World, from: string, m: StoredMsg)
    requires Valid(w) && m.timestamp == w.clock
    ensures Valid(w.(histories := w.histories[from := HistoryOf(w, from) + [m]], clock := w.clock + 1))
  {
    var h := HistoryOf(w, from) + [m];
    assert Ascending(h) && Before(h, w.clock + 1) by {
      if from in w.histories {
        assert Ascending(w.histories[from]) && Before(w.histories[from], w.clock);
      }
    }
    var w' := w.(histories := w.histories[from := h], clock := w.clock + 1);
    forall id | id in w'.histories ensures Ascending(w'.histories[id]) && Before(w'.histories[id], w'.clock) {
      if id != from {
        assert Before(w.histories[id], w.clock);
      }
    }
  }

  lemma LaterClockKeepsValidIf(w: World, w': World)
    requires w'.histories == w.histories && w.clock <= w'.clock
    ensures Valid(w) ==> Valid(w')
  {
    if Valid(w) {
      LaterClockKeepsValid(w, w');
    }
  }

  lemma AppendStampedKeepsValidIf(w: World, from: string, m: StoredMsg)
    requires m.timestamp == w.clock
    ensures Valid(w) ==> Valid(w.(histories := w.histories[from := HistoryOf(w, from) + [m]], clock := w.clock + 1))
  {
    if Valid(w) {
      AppendStampedKeepsValid(w, from, m);
    }
  }

  /** Moving the clock on without touching the histories keeps them valid. */
  lemma LaterClockKeepsValid(w: World, w': World)
    requires Valid(w) && w'.histories == w.histories && w.clock <= w'.clock
    ensures Valid(w')
  {
    forall id | id in w'.histories ensures Ascending(w'.histories[id]) && Before(w'.histories[id], w'.clock) {
      assert Before(w.histories[id], w.clock);
    }
  }

  /** One request. */
  function Handle(req: Request, w: World, env: Env): (o: Outcome)
    ensures o.response.status == 200 || o.response.status == 403 || o.response.status == 500
    ensures o.response.status == 403 ==> req.Get?
    ensures req.Get? ==> o.world == w
    ensures o.response.body.Some? ==> req.Get? && o.response.body == req.query.challenge
  {
    match req
    case Get(q) =>
      if q.verifyToken == Some(VerifyToken) then Outcome(Response(200, q.challenge), w)
      else Outcome(Forbidden, w)
    case Post(None) => Outcome(ServerError, w)
    case Post(Some(envelope)) =>
      match Inbound(envelope)
      case None => Outcome(Ok, w)
      case Some((m, v)) => Receive(m, v, w, env)
  }

  /** From the message on: read the phone id, fetch or create the profile, and stay silent
      while a person attends the customer. */
  function Receive(m: Message, v: Value, w: World, env: Env): (o: Outcome)
    ensures o.response == Ok || o.response == ServerError
    ensures o.response == ServerError ==> v.phoneNumberId.None? || (env.fault.Some? && !Fails(env, NotesWrite))
    ensures v.phoneNumberId.None? || Fails(env, ProfileFetch) ==> o == Outcome(ServerError, w)
    ensures Confined(w, o.world, m.from) && FlagsKept(w, o.world) && (Valid(w) ==> Valid(o.world))
  {
    match v.phoneNumberId
    case None => Outcome(ServerError, w)
    case Some(phone) =>
      var current := if m.from in w.profiles then Some(w.profiles[m.from]) else None;
      match Database.GetOrCreate(current, v.contactName.GetOr([]), w.clock, Fails(env, ProfileFetch))
      case FetchFailed => Outcome(ServerError, w)
      case Fetched(p, stored) =>
        var w1 := w.(profiles := w.profiles[m.from := stored], clock := w.clock + 1);
        VisitKeeps(m.from, current, stored, w, w1);
        if p.needsHuman then Outcome(Ok, w1)
        else
          var o := Converse(m.from, phone, InboundText(m), p.notes, w1, env);
          ConfinedTrans(w, w1, o.world, m.from);
          o
  }

  /** Storing the fetched profile touches one document and clears no flag. */
  lemma VisitKeeps(from: string, current: Option<Database.Profile>, stored: Database.Profile, w: World, w1: World)
    requires current == (if from in w.profiles then Some(w.profiles[from]) else None)
    requires current.Some? ==> stored.needsHuman == current.value.needsHuman
    requires w1 == w.(profiles := w.profiles[from := stored], clock := w.clock + 1)
    ensures Confined(w, w1, from) && FlagsKept(w, w1) && (Valid(w) ==> Valid(w1))
  {
    LaterClockKeepsValidIf(w, w1);
  }

  /** Record the customer's message, read the window, run the reply engine and write the
      memory it proposes. */
  function Converse(from: string, phone: string, text: string, notes: string, w: World, env: Env): (o: Outcome)
    requires from in w.profiles
    ensures o.response == Ok || o.response == ServerError
    ensures env.fault.None? || Fails(env, NotesWrite) ==> o.response == Ok
    ensures Fails(env, UserAppend) || Fails(env, HistoryQuery) ==> o.response == ServerError
    ensures Confined(w, o.world, from) && FlagsKept(w, o.world) && (Valid(w) ==> Valid(o.world))
    ensures env.fault.None? ==>
      var h := HistoryOf(w, from) + [StoredMsg(UserRol, text, w.clock)];
      Replied(h, w.outbox, w.profiles[from], from, phone, EngineTurnFor(text, h, notes, env), o.world)
  {
    if Fails(env, UserAppend) then Outcome(ServerError, w)
    else
      var m := StoredMsg(UserRol, text, w.clock);
      var h := HistoryOf(w, from) + [m];
      var w2 := w.(histories := w.histories[from := h], clock := w.clock + 1);
      assert HistoryOf(w2, from) == h;
      if Fails(env, HistoryQuery) then
        AppendedKeeps(from, m, w, w2);
        Outcome(ServerError, w2)
      else
        var e := EngineTurnFor(text, h, notes, env);
        var o := Answer(from, phone, e, w2, env);
        AnswerKeeps(from, phone, e, w2, env);
        AppendedKeeps(from, m, w, o.world);
        o
  }

  /** `generarRespuesta(textBody, window, { notas_mascota })` on the stored history `h`. */
  function EngineTurnFor(text: string, h: seq<StoredMsg>, notes: string, env: Env): (e: AiEngine.EngineTurn)
    ensures e == AiEngine.Respond(text, AiEngine.LastN(h, WindowSize), notes, env.ask, env.extract)
  {
    AiEngine.Respond(text, Window(h), notes, env.ask, env.extract)
  }

  /** Write the memory the engine proposed, then deliver its reply. */
  function Answer(from: string, phone: string, e: AiEngine.EngineTurn, w: World, env: Env): (o: Outcome)
    requires from in w.profiles
    ensures o.response == Ok || o.response == ServerError
    ensures env.fault.None? || Fails(env, NotesWrite) ==> o.response == Ok
    ensures env.fault.None? ==> Replied(HistoryOf(w, from), w.outbox, w.profiles[from], from, phone, e, o.world)
  {
    ReplyRecorded(from, phone, e, w, env);
    Deliver(from, phone, e.result, RecordMemory(from, e.memoryWrite, w, env), env)
  }

  lemma ReplyRecorded(from: string, phone: string, e: AiEngine.EngineTurn, w: World, env: Env)
    requires from in w.profiles
    ensures env.fault.None? ==>
      Replied(HistoryOf(w, from), w.outbox, w.profiles[from], from, phone, e,
              Deliver(from, phone, e.result, RecordMemory(from, e.memoryWrite, w, env), env).world)
  {
    var w3 := RecordMemory(from, e.memoryWrite, w, env);
    var o := Deliver(from, phone, e.result, w3, env);
    assert HistoryOf(w3, from) == HistoryOf(w, from);
    if env.fault.None? {
      if e.result.text != [] {
        assert HistoryOf(o.world, from) == HistoryOf(w, from) + [StoredMsg(BotRol, e.result.text, w3.clock)];
      } else {
        assert HistoryOf(o.world, from) == HistoryOf(w, from);
      }
    }
  }


  /** What a turn that throws nowhere leaves behind, given the history `h`, the outbox and
      the document before the engine's reply: the reply appended to the history and sent
      exactly when its text is non-empty, the flag set exactly when the engine handed over
      to sales (or already set), and the notes replaced only by the cleaned notes the engine
      proposed when they are long enough. */
  predicate Replied(h: seq<StoredMsg>, outbox: seq<Outgoing>, p: Database.Profile, from: string, phone: string,
                    e: AiEngine.EngineTurn, w': World)
  {
    && |HistoryOf(w', from)| == |h| + (if e.result.text != [] then 1 else 0)
    && HistoryOf(w', from)[..|h|] == h
    && (e.result.text != [] ==>
          HistoryOf(w', from)[|h|].rol == BotRol && HistoryOf(w', from)[|h|].texto == e.result.text)
    && w'.outbox == outbox + (if e.result.text != [] then [Outgoing(phone, from, e.result.text)] else [])
    && from in w'.profiles
    && (w'.profiles[from].needsHuman <==> p.needsHuman || e.result.action == HandoverSales)
    && w'.profiles[from].notes ==
         if e.memoryWrite.Some? && Database.Accepted(e.memoryWrite.value) then Database.CleanNotes(e.memoryWrite.value)
         else p.notes
  }

  /** `actualizarNotasMascota` on the notes the engine proposed, if any. */
  function RecordMemory(from: string, write: Option<string>, w: World, env: Env): (w': World)
    requires from in w.profiles
    ensures from in w'.profiles && w'.histories == w.histories && w'.outbox == w.outbox
    ensures w'.profiles == w.profiles[from := w'.profiles[from]]
    ensures w'.clock >= w.clock
    ensures w'.profiles[from].needsHuman == w.profiles[from].needsHuman
    ensures write.Some? && Database.Accepted(write.value) && !Fails(env, NotesWrite) ==>
      w'.profiles[from].notes == Database.CleanNotes(write.value)
    ensures !(write.Some? && Database.Accepted(write.value) && !Fails(env, NotesWrite)) ==>
      w'.profiles[from].notes == w.profiles[from].notes
  {
    match write
    case None => w
    case Some(raw) =>
      var q := Database.StoreNotes(w.profiles[from], raw, w.clock, Fails(env, NotesWrite));
      w.(profiles := w.profiles[from := q], clock := w.clock + 1)
  }

  /** Send and store the reply when its text is non-empty, then act on the sales hand-over. */
  function Deliver(from: string, phone: string, result: AiResult, w: World, env: Env): (o: Outcome)
    requires from in w.profiles
    ensures o.response == Ok || o.response == ServerError
    ensures o.response == ServerError <==>
      || (result.text != [] && (Fails(env, Send) || Fails(env, ReplyAppend)))
      || (result.action == HandoverSales && Fails(env, HandoverWrite))
    ensures env.fault.None? ==> o.response == Ok
    ensures Confined(w, o.world, from) && FlagsKept(w, o.world)
    ensures Valid(w) ==> Valid(o.world)
    ensures o.world.outbox == w.outbox + (if result.text != [] && !Fails(env, Send) then [Outgoing(phone, from, result.text)] else [])
    ensures from in o.world.profiles && o.world.profiles[from].notes == w.profiles[from].notes
    ensures HistoryOf(o.world, from) == HistoryOf(w, from) +
      (if result.text != [] && !Fails(env, Send) && !Fails(env, ReplyAppend) then [StoredMsg(BotRol, result.text, w.clock)] else [])
    ensures env.fault.None? ==>
      (o.world.profiles[from].needsHuman <==> w.profiles[from].needsHuman || result.action == HandoverSales)
  {
    if result.text == [] then Escalate(from, result.action, w, env)
    else if Fails(env, Send) then Outcome(ServerError, w)
    else
      var w4 := w.(outbox := w.outbox + [Outgoing(phone, from, result.text)]);
      if Fails(env, ReplyAppend) then Outcome(ServerError, w4)
      else
        var w5 := w4.(histories := w4.histories[from := HistoryOf(w4, from) + [StoredMsg(BotRol, result.text, w4.clock)]],
                      clock := w4.clock + 1);
        LaterClockKeepsValidIf(w, w4);
        AppendStampedKeepsValidIf(w4, from, StoredMsg(BotRol, result.text, w4.clock));
        Escalate(from, result.action, w5, env)
  }

  /** Flag the customer for a person when the engine handed over to sales. */
  function Escalate(from: string, action: Action, w: World, env: Env): (o: Outcome)
    requires from in w.profiles
    ensures o.response == ServerError <==> action == HandoverSales && Fails(env, HandoverWrite)
    ensures o.response == Ok || o.response == ServerError
    ensures o.world.histories == w.histories && o.world.outbox == w.outbox && w.clock <= o.world.clock
    ensures from in o.world.profiles && o.world.profiles == w.profiles[from := o.world.profiles[from]]
    ensures o.world.profiles[from].needsHuman <==>
      w.profiles[from].needsHuman || (action == HandoverSales && !Fails(env, HandoverWrite))
    ensures o.world.profiles[from].notes == w.profiles[from].notes
  {
    if action != HandoverSales then Outcome(Ok, w)
    else if Fails(env, HandoverWrite) then Outcome(ServerError, w)
    else
      var p := w.profiles[from].(needsHuman := true, handoverAt := Some(w.clock));
      Outcome(Ok, w.(profiles := w.profiles[from := p], clock := w.clock + 1))
  }

  // ---------------------------------------------------------------------------------------
  // What one request does
  // ---------------------------------------------------------------------------------------

  lemma ConfinedTrans(a: World, b: World, c: World, from: string)
    requires Confined(a, b, from) && Confined(b, c, from)
    ensures Confined(a, c, from)
  {
    assert c.outbox[..|b.outbox|][..|a.outbox|] == c.outbox[..|a.outbox|];
  }

  lemma FlagsKeptTrans(a: World, b: World, c: World)
    requires FlagsKept(a, b) && FlagsKept(b, c)
    ensures FlagsKept(a, c)
  {
  }

  /** The engine's part of the conversation: write the proposed memory, then deliver. */
  lemma AnswerKeeps(from: string, phone: string, e: AiEngine.EngineTurn, w: World, env: Env)
    requires from in w.profiles
    ensures var o := Answer(from, phone, e, w, env);
      Confined(w, o.world, from) && FlagsKept(w, o.world) && (Valid(w) ==> Valid(o.world))
  {
    var w3 := RecordMemory(from, e.memoryWrite, w, env);
    var o := Deliver(from, phone, e.result, w3, env);
    assert Confined(w, w3, from);
    LaterClockKeepsValidIf(w, w3);
    ConfinedTrans(w, w3, o.world, from);
    FlagsKeptTrans(w, w3, o.world);
  }

  /** Appending a message stamped with the clock, followed by any step that keeps the
      three properties. */
  lemma AppendedKeeps(from: string, m: StoredMsg, w: World, w': World)
    requires m.timestamp == w.clock
    requires var w2 := w.(histories := w.histories[from := HistoryOf(w, from) + [m]], clock := w.clock + 1);
      && from in w2.profiles
      && Confined(w2, w', from) && FlagsKept(w2, w') && (Valid(w2) ==> Valid(w'))
    ensures Confined(w, w', from) && FlagsKept(w, w') && (Valid(w) ==> Valid(w'))
  {
    var w2 := w.(histories := w.histories[from := HistoryOf(w, from) + [m]], clock := w.clock + 1);
    assert Confined(w, w2, from);
    ConfinedTrans(w, w2, w', from);
    AppendStampedKeepsValidIf(w, from, m);
  }

  /** A request touches only the customer who wrote: every other customer's document and
      history stay as they were, and every message sent goes to that customer. */
  lemma OtherCustomersUntouched(e: Envelope, w: World, env: Env)
    requires Inbound(e).Some?
    ensures Confined(w, Handle(Post(Some(e)), w, env).world, Inbound(e).value.0.from)
  {
  }

  /** Every request keeps each history in timestamp order, so the history query always reads
      the newest messages. */
  lemma HandleKeepsValid(req: Request, w: World, env: Env)
    requires Valid(w)
    ensures Valid(Handle(req, w, env).world)
  {
    if req.Post? && req.body.Some? && Inbound(req.body.value).Some? {
      var (m, v) := Inbound(req.body.value).value;
      assert Handle(req, w, env) == Receive(m, v, w, env);
    }
  }

  /** Once a customer is handed over to a person, no request clears the flag. */
  lemma HandoverIsSticky(req: Request, w: World, env: Env)
    ensures FlagsKept(w, Handle(req, w, env).world)
  {
    if req.Post? && req.body.Some? && Inbound(req.body.value).Some? {
      var (m, v) := Inbound(req.body.value).value;
      assert Handle(req, w, env) == Receive(m, v, w, env);
    }
  }

  /** The verification handshake: 200 with the challenge exactly when the token matches,
      403 otherwise, and nothing is stored or sent. */
  lemma VerificationHandshake(q: Query, w: World, env: Env)
    ensures var o := Handle(Get(q), w, env);
      && (o.response.status == 200 <==> q.verifyToken == Some(VerifyToken))
      && (o.response.status == 200 ==> o.response.body == q.challenge)
      && (o.response.status != 200 ==> o.response == Forbidden)
      && o.world == w
  {
  }

  /** A notification that is not from the business account or carries no message is
      acknowledged and changes nothing. */
  lemma IgnoredNotification(e: Envelope, w: World, env: Env)
    requires Inbound(e).None?
    ensures Handle(Post(Some(e)), w, env) == Outcome(Ok, w)
  {
  }

  /** A notification without a body, or whose value lacks its metadata, throws before any
      write: 500 and nothing changes. */
  lemma MalformedNotificationFails(e: Envelope, w: World, env: Env)
    ensures Handle(Post(None), w, env) == Outcome(ServerError, w)
    ensures Inbound(e).Some? && Inbound(e).value.1.phoneNumberId.None? ==>
      Handle(Post(Some(e)), w, env) == Outcome(ServerError, w)
  {
  }

  /** A 500 comes only from a missing body, missing metadata or a store or send call that
      throws; the reply engine's own failures never produce one, and neither does a failed
      notes write, which the store swallows. */
  lemma ServerErrorNeedsAFault(req: Request, w: World, env: Env)
    requires env.fault.None? || Fails(env, NotesWrite)
    ensures var o := Handle(req, w, env);
      o.response == ServerError ==>
        req.Post? && (req.body.None? || (Inbound(req.body.value).Some? && Inbound(req.body.value).value.1.phoneNumberId.None?))
  {
  }

  /** A failed profile fetch stops the request before anything is stored or sent. */
  lemma FailedFetchChangesNothing(e: Envelope, w: World, env: Env)
    requires Inbound(e).Some? && Fails(env, ProfileFetch)
    ensures Handle(Post(Some(e)), w, env) == Outcome(ServerError, w)
  {
  }

  /** While a person attends the customer the bot stays silent: nothing is sent, no message
      is recorded, and the document only gets its visit time. */
  lemma HandedOverStaysSilent(e: Envelope, w: World, env: Env)
    requires Inbound(e).Some? && Inbound(e).value.1.phoneNumberId.Some?
    requires var from := Inbound(e).value.0.from; from in w.profiles && w.profiles[from].needsHuman
    requires !Fails(env, ProfileFetch)
    ensures var o := Handle(Post(Some(e)), w, env); var from := Inbound(e).value.0.from;
      && o.response == Ok
      && o.world.outbox == w.outbox && o.world.histories == w.histories
      && from in o.world.profiles && Database.SameButVisit(o.world.profiles[from], w.profiles[from])
  {
  }

  /** The customer's message just recorded is the last turn the reasoning API is given, so
      normalisation never loses it: with a non-empty text it ends the engine's history. */
  lemma EngineSeesCustomerMessage(h: seq<StoredMsg>, text: string, ts: nat)
    requires text != []
    ensures var t := AiEngine.NormalizeHistory(Window(h + [StoredMsg(UserRol, text, ts)]));
      t != [] && t[|t| - 1] == Turn(User, text)
  {
    var m := StoredMsg(UserRol, text, ts);
    WindowOfAppended(h, m);
    AiEngine.NormalizeEndsWithLatestUserMessage(AiEngine.LastN(h, WindowSize - 1), text, ts);
  }

  /** The engine's gate and the store's cleaning disagree on a doubled marker: the gate lets
      `SIN_SIN_CAMBIOSCAMBIOS` through as new notes, and the cleaning turns it into the
      marker itself, which is then written as the customer's notes. */
  lemma MarkerCanReachNotes(p: Database.Profile, raw: string, now: nat)
    requires raw == "SIN_SIN_CAMBIOSCAMBIOS" && p.notes != raw
    ensures AiEngine.MemoryGate(p.notes, AiEngine.Extracted(raw)) == Some(raw)
    ensures Database.StoreNotes(p, raw, now, false).notes == NoChangeMarker
  {
    DoubledMarkerIsTrimmed(raw);
    Database.NestedMarkerSurvives(p, raw, now);
  }

  /** The store writes the cleaned text, not the proposal. When the proposed notes are
      accepted and hold no marker the two agree, so once they are written the same extraction
      no longer passes the engine's gate. */
  lemma StoredNotesSettle(p: Database.Profile, text: string, now: nat)
    requires Database.Accepted(JsText.Trim(text))
    requires forall i :: !JsText.OccursAt(JsText.Trim(text), NoChangeMarker, i)
    ensures var q := Database.StoreNotes(p, JsText.Trim(text), now, false);
      q.notes == JsText.Trim(text) && AiEngine.MemoryGate(q.notes, AiEngine.Extracted(text)) == None
  {
    JsText.TrimIdempotent(text);
  }

  /** With a doubled marker the two never agree: the written notes are the bare marker, so
      the same extraction passes the gate again and is written again on every turn. */
  lemma DoubledMarkerNeverSettles(p: Database.Profile, raw: string, now: nat)
    requires raw == "SIN_SIN_CAMBIOSCAMBIOS" && p.notes != raw
    ensures var q := Database.StoreNotes(p, raw, now, false);
      q.notes == NoChangeMarker && AiEngine.MemoryGate(q.notes, AiEngine.Extracted(raw)) == Some(raw)
  {
    MarkerCanReachNotes(p, raw, now);
    var q := Database.StoreNotes(p, raw, now, false);
    DoubledMarkerShape(raw);
    MarkerCanReachNotes(q, raw, now);
  }

  lemma DoubledMarkerIsTrimmed(raw: string)
    requires raw == "SIN_SIN_CAMBIOSCAMBIOS"
    ensures raw != [] && JsText.Trim(raw) == raw && raw != NoChangeMarker
  {
    DoubledMarkerShape(raw);
    JsText.TrimOfTrimmed(raw);
  }

  lemma DoubledMarkerShape(raw: string)
    requires raw == "SIN_SIN_CAMBIOSCAMBIOS"
    ensures |raw| == 22 && JsText.Trimmed(raw) && raw != NoChangeMarker
  {
    assert raw[0] == 'S' && raw[21] == 'S';
  }
}

=== FILE: wrappers.dfy ===
/** Optional values: the model's stand-in for JavaScript's `undefined` and `null`. */
module Wrappers {

  datatype Option<+T> = None | Some(value: T) {

    predicate IsFailure() {
      None?
    }

    function PropagateFailure<U>(): Option<U>
      requires None?
    {
      None
    }

    function Extract(): T
      requires Some?
    {
      value
    }

    /** The wrapped value, or `default` when there is none (JavaScript's `x ?? default`). */
    function GetOr(default: T): T {
      match this
      case Some(v) => v
      case None => default
    }
  }
}
